=== FILE: README.md ===
# MUI data table view-model in Dafny

This project models the logic inside a React data-table component. The component sorts, filters, searches, paginates, selects rows and exports CSV. Two pieces of pure logic sit inside the UI glue, and both are modelled here as pure functions over immutable data:

- **The table view-model** (`src/components/MUITable.tsx`). The state record. The handlers for sort clicks, row clicks, select-all, page and page-size changes, search input and filter-predicate changes. The effect that derives the visible page. Each handler is a state-to-state function, and the derivation effect is a pure function `Derive`. The effect runs filter, then search, then sort, then paginate, then counts the blank padding rows, then reconciles the selection.
- **The filter engine and CSV text** (`src/components/Toolbar.tsx`). Per-column type and range inference. The filter list with upsert, remove and reset. The conjunctive row predicate. The content of the CSV export.

Records are `Rows.Row(ref, cells)`. `cells` is the ordered list of named fields that `Object.keys` reports, and each value is `VNum(int) | VStr(string) | VBool(bool) | VNull`. An absent field (`undefined`) is `None` from `Rows.Lookup`. `ref` stands for the object reference: the component compares rows with `===`, so selection and reconciliation compare `ref` only.

The table's `filterFunc` is represented by the list of filters the toolbar composed it from. The initial `() => true` is the empty list. The sort comparator is a parameter of type `Table.Comparator` that maps (direction, key) to an ordering, because the factory that builds it is not part of this model. The sort itself is a stable insertion sort, which matches `Array.prototype.sort` for a comparator that is a total preorder.

The filter predicate can throw in JavaScript, and the model keeps that error path:
- `toString()` on a `null` or `undefined` cell;
- `toLowerCase()` on a non-string text value;
- destructuring a boolean as a range.

An evaluation that throws gives `None` in `Filters.EvalFilter`. It makes `Table.Derive` return `TypeError`, and this happens exactly when some row's predicate throws.

Quirks of the code that the model reproduces:
- `currentData` is set once at construction and never reassigned, so select-all selects the *initial* data (`Table.SelectAllUsesInitialData`). Select-all and row clicks change only `selected`, which the derivation effect does not depend on, so no effect reconciles the selection afterwards (see Findings).
- The search stage keeps only rows with a string field containing the query, even when the query is empty (`Table.EmptySearchNeedsAStringField`).
- Unchecking a boolean filter's checkbox stores `false` instead of removing the filter (`Filters.UncheckedBoxKeepsFilter`). Only the close icon (an `undefined` value) removes it.
- `if (defaultOrderBy)` treats an empty requested key as absent. `keys[0]` of a record with no fields is `undefined`, which is `None` here.
- `passedColumns || generateColumns()` keeps an explicitly passed empty column list.

Modules: `Wrappers` (Option, Result), `Seqs` (findIndex, filter, slice, join, split), `Text` (ASCII case mapping, `includes`, decimal printing, JSON string quoting), `Rows`, `Sorting`, `Filters`, `Csv`, `Table`, and `Examples` (a two-record example).

## Model

| member | source | states |
|---|---|---|
| Table.DefaultOrderByKey | src/components/MUITable.tsx:83-97 | Empty data gives `"id"`. Otherwise the requested key is used when it is non-empty and among the first record's keys. Otherwise `"id"` if it is a key, else the first key, else undefined. |
| Table.DefaultOrderByIsAKey | src/components/MUITable.tsx:83-97 | When the first record has fields, the default sort key is always one of them. |
| Table.GenerateColumns | src/components/MUITable.tsx:115-123 | Empty data gives no columns. Otherwise the columns are the first record's keys in order (a subsequence), minus the excluded ones, and every non-excluded key appears. Each label is the capitalized key. |
| Text.Capitalize | src/components/MUITable.tsx:121 | The label has the key's length, its first character upper-cased and the rest of the key unchanged. |
| Text.CapitalizeKeepsLetters | src/components/MUITable.tsx:121 | Capitalizing changes only letter case: lower-casing the label gives the lower-cased key. |
| Table.EffectiveColumns | src/components/MUITable.tsx:125 | Passed columns win, even an empty list. Otherwise the generated columns are used. |
| Table.Init | src/components/MUITable.tsx:99-113 | The initial state: the given or ascending order, the default sort key, no selection, page 0 of 5 rows, an empty query, a predicate admitting every row, `currentData` and the unpaginated `visibleRows` equal to the data, and no blank rows. |
| Table.HandleSearch | src/components/MUITable.tsx:127-129 | Only the query changes. It becomes the typed text lower-cased, which lower-casing again leaves unchanged. |
| Table.SearchIgnoresQueryCase | src/components/MUITable.tsx:127-146 | Two typed queries that differ only in letter case select the same rows. |
| Table.SearchIgnoresUpperCase | src/components/MUITable.tsx:127-146 | Typing a query with upper-case letters finds the rows its lower-case form finds. |
| Text.LowerIdempotent | src/components/MUITable.tsx:128 | Lower-casing twice is lower-casing once. |
| Table.SearchRows | src/components/MUITable.tsx:141-146 | The search stage keeps, in order, exactly the rows that have a string field whose lower-cased text contains the query, and each kept row keeps every copy it had. |
| Table.MatchesSearch | src/components/MUITable.tsx:142-145 | A row matches only through a string field at least as long as the query, and a query with an upper-case letter never matches. |
| Table.EmptySearchNeedsAStringField | src/components/MUITable.tsx:141-146 | With an empty query a row survives the search exactly when it has a string-valued field. |
| Table.FilterRows | src/components/MUITable.tsx:139-140 | The filter stage throws exactly when the predicate throws on some row. Otherwise it keeps, in order, the rows the predicate admits. |
| Table.FilterStageIntersects | src/components/MUITable.tsx:139-140 | Filtering by the filters of two lists together is filtering by one list, then by the other. |
| Table.Process | src/components/MUITable.tsx:139-147 | Filter, search and sort together throw exactly when the predicate throws on a row. Otherwise they give the stable sort of the rows that pass both the filters and the search, as one condition. |
| Sorting.Sort | src/components/MUITable.tsx:147 | The sort is a permutation of its input (same multiset). It is ordered whenever the ordering is total. |
| Table.PageOf | src/components/MUITable.tsx:150-154 | The page is the slice starting at `page*rowsPerPage`, clamped to the data: at most `rowsPerPage` rows, each equal to the row at its offset. |
| Table.PageFill | src/components/MUITable.tsx:150-159 | While the page starts within the data, shown rows plus blank rows equal `rowsPerPage`. Past the end the page is empty and the blank count exceeds a page. |
| Table.EmptyRows | src/components/MUITable.tsx:156-159 | The blank count is zero exactly when the rows fill the page. Otherwise it tops the rows up to exactly one full page. |
| Table.Derive | src/components/MUITable.tsx:139-168 | The derivation throws exactly when the predicate throws on some row. Otherwise it shows at most `rowsPerPage` rows. The new selection is the old one reconciled against the data: an order-preserving subsequence that keeps every row still present by reference, and only those. No other field changes. |
| Table.DeriveShowsWindow | src/components/MUITable.tsx:150-159 | The shown rows are the pagination window of the sorted matching rows. The blank-row count is `max(0, (page+1)*rowsPerPage - n)` for the `n` matching rows. |
| Table.DeriveShowsMatchingRows | src/components/MUITable.tsx:139-154 | Every shown row is a row of the data that every filter admits and that matches the search. |
| Table.DeriveFillsPage | src/components/MUITable.tsx:150-159 | Whenever `page*rowsPerPage` is at most the number of matching rows, shown rows plus blank rows equal `rowsPerPage`. |
| Table.DeriveShowsSortedPage | src/components/MUITable.tsx:147-154 | For a total ordering the shown page is ordered. |
| Table.Reconcile | src/components/MUITable.tsx:165-167 | The reconciled selection is an order-preserving subsequence of the old one. It keeps exactly the rows whose reference is in the data, each with all its copies. |
| Table.ReconcileIdempotent | src/components/MUITable.tsx:165-167 | Reconciling twice against the same data equals reconciling once. |
| Table.ReconcileIgnoresEqualFields | src/components/MUITable.tsx:184-186 | A selected row whose reference left the data is dropped, whatever rows with equal fields remain. |
| Table.ReconcileSelection | src/components/MUITable.tsx:181-188 | The data-change effect changes only the selection. The selection becomes the old one reconciled against the new data, so every row still present is kept, and only those. |
| Table.HandleRequestSort | src/components/MUITable.tsx:191-198 | The clicked column becomes the sort key. The order becomes descending exactly when that column was active and ascending. Nothing else changes. |
| Table.RequestSortTwice | src/components/MUITable.tsx:191-198 | Clicking the active ascending column twice restores the state. |
| Table.RequestSortOtherTwice | src/components/MUITable.tsx:191-198 | Clicking a column that is not active sorts it ascending, and a second click sorts it descending. |
| Table.HandleSelectAllClick | src/components/MUITable.tsx:200-206 | Checked selects `currentData` and unchecked selects nothing. Nothing else changes. |
| Table.SelectAllUsesInitialData | src/components/MUITable.tsx:200-206 | After mounting and any run of events, select-all selects the data the component was built with. |
| Table.Run | src/components/MUITable.tsx:109 | After any run of events, `currentData` is still the data the component was built with. The data in effect is that of the last data change, or the initial data when there was none. |
| Table.StaleSelectionAfterDataChange | src/components/MUITable.tsx:200-206 | Mount with some records, receive data lacking the first of them, and tick select-all: the selection then holds a row that is not in the data. |
| Table.StaleSelectionFrom | src/components/MUITable.tsx:200-206 | The same two events from any state whose predicate admits every row: the selection becomes `currentData`, and its first row is not in the new data. |
| Table.SelectAllStep | src/components/MUITable.tsx:200-206 | Ticking select-all selects `currentData`, changes nothing else and never throws, because the derivation does not depend on the selection. |
| Table.DataChangeUnfiltered | src/components/MUITable.tsx:137-140 | With a predicate that admits every row, a data change never throws and puts the new data in effect. |
| Table.StepCorrected | src/components/MUITable.tsx:180-206 | With select-all corrected to select the data in effect, no event takes the selection outside the data in effect, provided a click is on a row of that data. Ticking select-all selects every row of that data. `currentData` never changes. |
| Table.ToggleSelected | src/components/MUITable.tsx:208-225 | An absent row (by reference) is appended. A present row loses its first occurrence by reference, and the rest keep their order. |
| Table.HandleClick | src/components/MUITable.tsx:208-225 | A click changes only the selection, which becomes the toggled selection. It appends an absent row. For a present row it removes the first occurrence of that row by reference and keeps the rest in order. |
| Table.ToggleAbsentTwice | src/components/MUITable.tsx:212-213 | Clicking an unselected row twice restores the selection. |
| Table.TogglePresentRemovesOne | src/components/MUITable.tsx:214-223 | Clicking a selected row shortens the selection by one and keeps the rest in order. |
| Table.HandleChangePage | src/components/MUITable.tsx:227-229 | Only the page changes, to the requested one. |
| Table.HandleChangeRowsPerPage | src/components/MUITable.tsx:231-237 | The page size is set and the page resets to 0. Nothing else changes. |
| Table.HandleFilterChange | src/components/MUITable.tsx:239-241 | The installed predicate agrees with the toolbar's on every row. Nothing else changes. |
| Table.SyncOrderBy | src/components/MUITable.tsx:131-134 | Only the sort key changes, and it becomes the key `getDefaultOrderByKey` resolves for the new data. That key is a field of the first record whenever that record has fields. |
| Table.Step | src/components/MUITable.tsx:169-188 | The derivation runs after an event only when one of its dependencies changed: when none did, the step is exactly the handler's state, with the selection unreconciled. Select-all and row clicks never trigger it and leave the shown page as it was. A data change re-derives: it throws exactly when the predicate throws on a new row, and otherwise leaves every selected row present in the new data. Any other event keeps a selection that was inside the data inside it. `currentData` never changes. |
| Table.StepShows | src/components/MUITable.tsx:137-177 | After a successful step that re-derives, the state shows the page and blank-row count of the rows matching its own inputs over the data in effect. After a step that does not re-derive, a state that showed its data still does, because none of the derivation's inputs changed. |
| Table.DeriveShows | src/components/MUITable.tsx:137-168 | A successful derivation leaves a state that shows its data: the page and blank-row count computed from the state's own filters, query, sort and page. |
| Table.ShowsKept | src/components/MUITable.tsx:169-177 | What a state shows depends only on the listed dependencies and the predicate, so a state that agrees on them and on the shown rows shows the same data. |
| Table.Mount | src/components/MUITable.tsx:99-188 | Mounting never throws. It shows the derivation's page of the initial data, with no selection, page 0 of 5 rows, an empty query, the default order and sort key, a predicate admitting every row, and `currentData` equal to the data. |
| Table.RunShows | src/components/MUITable.tsx:131-188 | From a state that shows its data (as after mounting), every successful run of events ends in a state that shows the data in effect. |
| Filters.InferConfig | src/components/Toolbar.tsx:79-89 | The type is `number` exactly when every value is a number. In that case min and max bound every value and are both attained. Otherwise the type is `boolean` exactly when the first value is a boolean, else `string`, and neither type has bounds. |
| Filters.NumericExtent | src/components/Toolbar.tsx:87-88 | The minimum and maximum of an all-numeric column bound every value and are attained. |
| Filters.MinOf | src/components/Toolbar.tsx:87 | `Math.min` of a non-empty list is one of its elements and no greater than any of them. |
| Filters.MaxOf | src/components/Toolbar.tsx:88 | `Math.max` of a non-empty list is one of its elements and no less than any of them. |
| Filters.RefreshConfigs | src/components/Toolbar.tsx:77-93 | With no data the configuration stays. Otherwise there is one inferred configuration per column, in column order. The active filters are untouched. |
| Filters.EvalFilter | src/components/Toolbar.tsx:99-110 | A numeric filter compares the cell converted to a number against the inclusive range: null reads as 0 and a boolean as 0 or 1, and a missing field rejects. It throws only for a boolean filter value. A text filter is a case-insensitive substring test on the cell's `toString()` form, numbers and booleans included, and it throws exactly for null, a missing field or a non-text value. A boolean filter never throws and admits exactly the rows whose value is that boolean. |
| Filters.ToNumber | src/components/Toolbar.tsx:102 | Conversion for `>=` and `<=`: null is 0, a boolean is 0 or 1, and a number is itself. A string or undefined gives NaN. |
| Filters.ToJsString | src/components/Toolbar.tsx:105 | `toString()` throws exactly on null and undefined. A number's text is canonical (no leading zero, no `-0`) and parses back to the number, which pins it (`Text.CanonicalIntUnique`). A string is itself, and a boolean is `true` or `false`. |
| Text.IntToString | src/components/Toolbar.tsx:105 | An integer's decimal text: digits with an optional leading minus, canonical (no leading zero and no minus before a zero). |
| Text.CanonicalIntUnique | src/components/Toolbar.tsx:105 | A canonical decimal string that parses to `n` is exactly the text of `n`, so a number has one `toString()` form. |
| Text.ContainsIffOccurs | src/components/Toolbar.tsx:105 | `includes` holds exactly when the needle occurs at some position of the text. |
| Filters.StrictEquals | src/components/Toolbar.tsx:108 | `===` holds exactly for a boolean equal to the flag or a string equal to the text. A slider range array equals nothing. |
| Filters.FirstFailure | src/components/Toolbar.tsx:98-111 | `every` gives true exactly when all verdicts are true. It throws exactly when a verdict throws before any rejection. |
| Filters.Every | src/components/Toolbar.tsx:98-111 | The conjunction admits a row exactly when every filter admits it. It throws exactly when some filter throws and all filters before it admitted the row. |
| Filters.Admits | src/components/Toolbar.tsx:96-111 | The empty list admits every row. Otherwise a row passes exactly when every filter admits it. |
| Filters.AdmitsConcat | src/components/Toolbar.tsx:96-111 | A row passes two lists of filters together exactly when it passes each list, so the row sets intersect. |
| Filters.TextFilterIgnoresCase | src/components/Toolbar.tsx:104-106 | A text filter gives the same verdict for a query and its lower-cased form. |
| Filters.GetFilter | src/components/Toolbar.tsx:130-131 | The result is the first filter with the key, and nothing is found exactly when no filter has the key. |
| Filters.UpdateFilter | src/components/Toolbar.tsx:133-145 | If the key is present, the first filter with it is replaced in place and the length is unchanged. Otherwise the filter is appended. |
| Filters.GetAfterUpdate | src/components/Toolbar.tsx:133-145 | After an upsert, looking up its key finds the new filter. |
| Filters.GetOtherAfterUpdate | src/components/Toolbar.tsx:133-145 | An upsert does not change the lookup of any other key. |
| Filters.UpdateKeepsKeysUnique | src/components/Toolbar.tsx:133-145 | Upserting keeps filter keys unique. |
| Filters.RemoveFilter | src/components/Toolbar.tsx:147-149 | Every filter for the key is dropped. All other filters remain, in order. |
| Filters.RemoveKeepsKeysUnique | src/components/Toolbar.tsx:147-149 | Removing keeps filter keys unique. |
| Filters.HandleFilterChange | src/components/Toolbar.tsx:151-164 | Undefined, null or `""` removes the key's filters. A key with no inferred configuration leaves everything unchanged. Otherwise the filter is upserted with the configuration's type. |
| Filters.IsBlank | src/components/Toolbar.tsx:152 | Undefined and null are blank. A given value is blank exactly when it is the empty text, so a checkbox flag or a slider range is never blank. |
| Filters.HandleFilterChangeKeepsKeysUnique | src/components/Toolbar.tsx:151-164 | A filter change keeps filter keys unique. |
| Filters.HandleFilterChangeThenGet | src/components/Toolbar.tsx:151-164 | After a blank change the key has no filter. After a non-blank change on a configured key, the lookup finds the value just set. |
| Filters.UncheckedBoxKeepsFilter | src/components/Toolbar.tsx:318-322 | Unchecking a boolean filter's checkbox keeps a filter for `false` instead of removing it. That filter admits exactly the rows whose value is `false`. |
| Filters.ResetFilters | src/components/Toolbar.tsx:166-169 | A reset empties the filter list and strictly increases the reset counter. |
| Filters.ResetAdmitsAll | src/components/Toolbar.tsx:166-169 | After a reset the predicate admits every row. |
| Csv.CsvContent | src/components/Toolbar.tsx:52-64 | An export has no content exactly when the data is empty. |
| Csv.CsvLines | src/components/Toolbar.tsx:59-64 | There are `data.length + 1` lines. The first is the first record's keys joined by commas, and each following line is one record's line. |
| Csv.EncodedFields | src/components/Toolbar.tsx:61-63 | A record line has one encoded field per header, in header order. |
| Csv.ContentLines | src/components/Toolbar.tsx:60-64 | When no key holds a newline, splitting the content at newlines gives the header line and then exactly one line per record. |
| Csv.LineFields | src/components/Toolbar.tsx:61-63 | When no encoded field holds a comma, a record line splits into one field per header. Each field decodes to the record's value, with null and missing fields read as `""`. |
| Csv.DecodeEncodeCell | src/components/Toolbar.tsx:62 | Each encoded value decodes back to itself. Null and missing values encode as the empty string `""`. |
| Csv.EncodeCell | src/components/Toolbar.tsx:62 | Null and undefined encode as the empty JSON string. An encoding starts with a quote exactly for strings, null and undefined; numbers and booleans are written bare. |
| Text.QuoteRoundTrip | src/components/Toolbar.tsx:62 | The JSON quoting of a string is undone by unquoting. |
| Rows.Lookup | src/components/Toolbar.tsx:99 | `row[key]` is undefined exactly when the key is not among the record's keys. Otherwise it is the value of a field with that name. |
| Examples.SearchAm | src/components/MUITable.tsx:141-146 | Searching `am` over Bob and Amy keeps only Amy. |
| Examples.AgeRange | src/components/Toolbar.tsx:100-103 | A range filter [26, 35] on age keeps only Bob. |
| Examples.DefaultKeys | src/components/MUITable.tsx:83-97 | For that data the default key is `id`. A request for `name` gives `name`, and one for a missing key falls back to `id`. |
| Examples.SortToggle | src/components/MUITable.tsx:191-198 | Clicking the active ascending column gives descending, and a second click gives ascending. |

## Left out

- Rendering: all JSX, the popover anchor, the search-box open toggle, and the Slider, TextField and Checkbox wiring. The only part kept is the value each control passes to the toolbar's `handleFilterChange`, as a `FilterInput`.
- `deactivateSelect`: it only decides whether the select handlers are attached to the UI.
- `src/components/TableHead.tsx` is not part of this model. It maps columns to header cells, and its sort click only forwards the column name to `handleRequestSort`.
- The Blob, object-URL and anchor download (Toolbar.tsx:66-74), the "No data to export." warning, printing through `react-to-print`, and the console warning of `getDefaultOrderByKey`. These are browser side effects.
- `getComparator` (in `./utils`) is not part of this model. It is the `Comparator` parameter, and no numeric-versus-lexicographic behaviour is assumed of it.
- Sorting.Sort: stability is not stated as a separate property. The insertion sort is stable by construction, and the stated properties are permutation and order.
- React scheduling. `useState` batching and effect ordering are not modelled. `Table.Step` applies a handler, then runs the derivation when one of its dependencies changed. After a data change the derivation runs once with the previous sort key; the effect lists `state.orderBy` as a dependency and compares it by value, so it runs a second time only when the re-resolved key differs. The model keeps only the final pass. The first render shows the unpaginated data held by `Table.Init`; `Table.Mount` is the state after the mount effects have run.
- JavaScript numbers: values are unbounded integers. NaN, infinities and fractions are not modelled. `Math.min` and `Math.max` are folds over a non-empty list.
- Filters.ToNumber: a string cell is treated as NaN, so a numeric filter rejects it. JavaScript converts numeric-looking strings such as `"30"` to numbers. This case needs a column whose configuration changed after the filter was set.
- Filters.EvalFilter: a numeric filter holding a text value rejects every row. JavaScript would destructure the text into characters and compare against them. The UI never produces this pairing.
- `toLowerCase`, `toUpperCase` and `includes` act on ASCII letters only. Unicode case mapping is not modelled.
- `JSON.stringify` of a string escapes only the quote, the backslash, `\n`, `\r` and `\t`. Other control characters are written raw instead of as `\b`, `\f` or `\u00XX`.
- `parseInt` in the rows-per-page handler is not modelled. The new size is taken as a positive integer (`PageSize`).
- Records whose field list repeats a name do not correspond to JavaScript objects. The model does not exclude them: `Lookup` reads the first such field, and the search reads every field.
- Rows.Lookup: `row[key]` for a name that is not an own field reads `undefined`. In JavaScript, names such as `constructor` or `toString` read inherited `Object.prototype` members instead, so a CSV header `constructor` over a record without that field gives an empty field in JavaScript, where the model writes `""`. Records are taken as plain data without inherited names.
- `Table.Run` stops at the first event whose derivation throws. In the source the throw escapes the effect and React unmounts the component.

## Findings

| source | as written | input that shows it | evidently intended | confidence | as-written member | corrected member |
|---|---|---|---|---|---|---|
| src/components/MUITable.tsx:200-206 | Select-all copies `currentData`, which is set once at line 109. The derivation effect (169-177) and the reconciliation effect (188) do not depend on `selected`, so nothing removes rows that left the data. | Mount with records `[a]`, then pass data `[b]`, then tick select-all: the selection is `[a]`, and `a` is not in the data. | The selection holds only rows of the current data, as the comment at line 180 says. Select-all selects the data in effect. | medium, not executed | Table.StaleSelectionAfterDataChange | Table.StepCorrected |

`Table.Step` keeps the code as written, because the rest of the model describes the component as it behaves. `Table.StepCorrected` is the corrected step, and its contract states the intended property.

=== FILE: csv.dfy ===
/** The text of the toolbar's CSV export (`downloadCSV` in src/components/Toolbar.tsx).
    The Blob/anchor download that follows is not modelled. */
module Csv {
  import opened Wrappers
  import opened Seqs
  import opened Text
  import opened Rows

  /** `JSON.stringify(value ?? "")`: `null` and `undefined` both become `""`. */
  function EncodeCell(v: Option<Value>): (r: string)
    ensures v.None? || v == Some(VNull) ==> r == "\"\""
    ensures |r| > 0 && (r[0] == '"' <==> v.None? || v.value.VNull? || v.value.VStr?)
  {
    match v
    case None => Quote("")
    case Some(VNull) => Quote("")
    case Some(VStr(s)) => Quote(s)
    case Some(VNum(n)) => IntToString(n)
    case Some(VBool(b)) => if b then "true" else "false"
  }

  /** Reads one encoded field back. */
  function DecodeCell(t: string): Option<Value> {
    if t == "true" then Some(VBool(true))
    else if t == "false" then Some(VBool(false))
    else if |t| > 0 && t[0] == '"' then
      match Unquote(t)
      case Some(s) => Some(VStr(s))
      case None => None
    else
      match ParseInt(t)
      case Some(n) => Some(VNum(n))
      case None => None
  }

  /** Every encoded field decodes to the value it encodes; `null` and an absent
      field come back as the empty string. */
  lemma DecodeEncodeCell(v: Option<Value>)
    ensures v.Some? && !v.value.VNull? ==> DecodeCell(EncodeCell(v)) == v
    ensures v.None? || v == Some(VNull) ==> DecodeCell(EncodeCell(v)) == Some(VStr(""))
  {
    match v
    case None => QuoteRoundTrip("");
    case Some(VNull) => QuoteRoundTrip("");
    case Some(VStr(s)) => QuoteRoundTrip(s);
    case Some(VNum(n)) =>
      ParseIntToString(n);
      var t := IntToString(n);
      assert t[0] != 't' && t[0] != 'f' && t[0] != '"';
    case Some(VBool(b)) =>
  }

  /** The encoded fields of one record, one per header, in header order. */
  function EncodedFields(row: Row, headers: seq<string>): (fs: seq<string>)
    ensures |fs| == |headers|
    ensures forall j :: 0 <= j < |headers| ==> fs[j] == EncodeCell(Lookup(row, headers[j]))
  {
    seq(|headers|, j requires 0 <= j < |headers| => EncodeCell(Lookup(row, headers[j])))
  }

  function CsvLine(row: Row, headers: seq<string>): string {
    Join(EncodedFields(row, headers), ',')
  }

  /** The header line followed by one line per record; the headers are the
      first record's keys. */
  function CsvLines(data: seq<Row>): (lines: seq<string>)
    requires |data| > 0
    ensures |lines| == |data| + 1
    ensures lines[0] == Join(Keys(data[0]), ',')
    ensures forall i :: 0 <= i < |data| ==> lines[i + 1] == CsvLine(data[i], Keys(data[0]))
  {
    var headers := Keys(data[0]);
    [Join(headers, ',')] + seq(|data|, i requires 0 <= i < |data| => CsvLine(data[i], headers))
  }

  /** The export's content: nothing for an empty collection, otherwise the lines
      joined by newlines. */
  function CsvContent(data: seq<Row>): (r: Option<string>)
    ensures r.None? <==> |data| == 0
  {
    if |data| == 0 then None else Some(Join(CsvLines(data), '\n'))
  }

  lemma EncodeCellHasNoNewline(v: Option<Value>)
    ensures '\n' !in EncodeCell(v)
  {
    match v
    case Some(VNum(n)) =>
      var t := IntToString(n);
      assert forall i :: 0 <= i < |t| ==> t[i] != '\n';
    case _ =>
  }

  /** When no field name holds a newline, the content has exactly one line per
      record after the header line, and the first line is the comma-joined keys
      of the first record. */
  lemma ContentLines(data: seq<Row>)
    requires |data| > 0
    requires forall j :: 0 <= j < |data[0].cells| ==> '\n' !in data[0].cells[j].name
    ensures |Split(CsvContent(data).value, '\n')| == |data| + 1
    ensures Split(CsvContent(data).value, '\n')[0] == Join(Keys(data[0]), ',')
    ensures forall i :: 0 <= i < |data| ==>
      Split(CsvContent(data).value, '\n')[i + 1] == CsvLine(data[i], Keys(data[0]))
  {
    var lines := CsvLines(data);
    var headers := Keys(data[0]);
    JoinExcludes(headers, ',', '\n');
    forall k | 0 <= k < |lines|
      ensures '\n' !in lines[k]
    {
      if k > 0 {
        var fs := EncodedFields(data[k - 1], headers);
        forall j | 0 <= j < |fs| ensures '\n' !in fs[j] {
          EncodeCellHasNoNewline(Lookup(data[k - 1], headers[j]));
        }
        JoinExcludes(fs, ',', '\n');
        assert lines[(k - 1) + 1] == lines[k];
      }
    }
    SplitJoin(lines, '\n');
  }

  /** When no encoded field holds a comma, a record's line splits back into one
      field per header, each decoding to the record's value for that header. */
  lemma LineFields(row: Row, headers: seq<string>)
    requires |headers| > 0
    requires forall j :: 0 <= j < |headers| ==> ',' !in EncodeCell(Lookup(row, headers[j]))
    ensures |Split(CsvLine(row, headers), ',')| == |headers|
    ensures forall j :: 0 <= j < |headers| ==>
      var v := Lookup(row, headers[j]);
      DecodeCell(Split(CsvLine(row, headers), ',')[j])
        == if v.None? || v == Some(VNull) then Some(VStr("")) else v
  {
    var fs := EncodedFields(row, headers);
    SplitJoin(fs, ',');
    forall j | 0 <= j < |headers|
      ensures var v := Lookup(row, headers[j]);
        DecodeCell(fs[j]) == if v.None? || v == Some(VNull) then Some(VStr("")) else v
    {
      DecodeEncodeCell(Lookup(row, headers[j]));
    }
  }
}

=== FILE: examples.dfy ===
/** A two-record example: two people, searched and filtered, with their default sort key and the sort order toggled. */
module Examples {
  import opened Wrappers
  import opened Rows
  import opened Table
  import Filters

  function Bob(): Row {
    Row(1, [Cell("id", VNum(1)), Cell("name", VStr("Bob")), Cell("age", VNum(30))])
  }

  function Amy(): Row {
    Row(2, [Cell("id", VNum(2)), Cell("name", VStr("Amy")), Cell("age", VNum(25))])
  }

  /** Searching "am" keeps only Amy: the match is on `name`, ignoring case. */
  lemma SearchAm()
    ensures SearchRows([Bob(), Amy()], "am") == [Amy()]
  {
    assert MatchesSearch(Amy(), "am") by {
      assert Amy().cells[1].value.VStr?;
      assert Text.Lower("Amy") == "amy";
      assert Text.Contains("amy", "am");
    }
    assert !MatchesSearch(Bob(), "am") by {
      assert Text.Lower("Bob") == "bob";
      assert !Text.Contains("", "am");
      assert !Text.Contains("b", "am") by { assert "b"[1..] == ""; }
      assert !Text.Contains("ob", "am") by { assert "ob"[1..] == "b"; assert "am"[0] != "ob"[0]; }
      assert !Text.Contains("bob", "am") by { assert "bob"[1..] == "ob"; assert "am"[0] != "bob"[0]; }
      assert forall i :: 0 <= i < |Bob().cells| && Bob().cells[i].value.VStr? ==> i == 1;
    }
  }

  /** A range filter [26, 35] on `age` keeps only Bob. */
  lemma AgeRange()
    ensures FilterRows([Bob(), Amy()], [Filters.Filter("age", Filters.NumberType, Filters.Range(26, 35))])
         == Ok([Bob()])
  {
    var f := Filters.Filter("age", Filters.NumberType, Filters.Range(26, 35));
    assert Lookup(Bob(), "age") == Some(VNum(30)) by {
      assert Keys(Bob())[2] == "age";
    }
    assert Lookup(Amy(), "age") == Some(VNum(25)) by {
      assert Keys(Amy())[2] == "age";
    }
    assert Filters.EvalFilter(f, Bob()) == Some(true);
    assert Filters.EvalFilter(f, Amy()) == Some(false);
    assert Filters.Admits([f], Bob()) == Some(true);
    assert Filters.Admits([f], Amy()) == Some(false);
    assert [Bob(), Amy()][1..] == [Amy()];
    assert [Amy()][1..] == [];
    assert FilterRows([], [f]) == Ok([]);
    assert FilterRows([Amy()], [f]) == Ok([]);
    var data := [Bob(), Amy()];
    assert data[0] == Bob() && data[1..] == [Amy()];
    assert [Bob()] + [] == [Bob()];
  }

  /** The default sort key of this data is `id`; asking for `name` gives `name`. */
  lemma DefaultKeys()
    ensures DefaultOrderByKey([Bob(), Amy()], None) == Some("id")
    ensures DefaultOrderByKey([Bob(), Amy()], Some("name")) == Some("name")
    ensures DefaultOrderByKey([Bob(), Amy()], Some("height")) == Some("id")
  {
    assert Keys(Bob()) == ["id", "name", "age"];
  }

  /** Clicking the active ascending column flips to descending, and back. */
  lemma SortToggle(s: ViewState)
    requires s.orderBy == Some("name") && s.order == Asc
    ensures HandleRequestSort(s, "name").order == Desc
    ensures HandleRequestSort(HandleRequestSort(s, "name"), "name").order == Asc
  {
  }
}

=== FILE: filters.dfy ===
/** The toolbar's filter engine (src/components/Toolbar.tsx): per-column type and
    range inference, the filter list with its upsert/remove/reset operations, and
    the composed row predicate handed to the table. */
module Filters {
  import opened Wrappers
  import opened Seqs
  import opened Text
  import opened Rows

  datatype ColumnType = NumberType | StringType | BooleanType

  /** What a filter control produces: a slider range, a text box, a checkbox. */
  datatype FilterValue = Range(lo: int, hi: int) | Text(t: string) | Flag(b: bool)

  datatype Filter = Filter(key: string, kind: ColumnType, value: FilterValue)

  /** The inferred type of a column, with the observed extent of a numeric one. */
  datatype FilterConfig = FilterConfig(key: string, kind: ColumnType, min: Option<int>, max: Option<int>)

  /** The argument of the toolbar's `handleFilterChange`. */
  datatype FilterInput = Undefined | Null | Given(v: FilterValue)

  /** The toolbar's filter state; `resetCounter` remounts the filter controls. */
  datatype ToolbarState = ToolbarState(filters: seq<Filter>, configs: seq<FilterConfig>, resetCounter: int)

  // ---------------------------------------------------------------- inference

  predicate IsNumberCell(v: Option<Value>) { v.Some? && v.value.VNum? }

  /** `data.map(row => row[key])`. */
  function ColumnValues(data: seq<Row>, key: string): (vs: seq<Option<Value>>)
    ensures |vs| == |data|
    ensures forall i :: 0 <= i < |data| ==> vs[i] == Lookup(data[i], key)
  {
    seq(|data|, i requires 0 <= i < |data| => Lookup(data[i], key))
  }

  function Numbers(vs: seq<Option<Value>>): (ns: seq<int>)
    requires forall i :: 0 <= i < |vs| ==> IsNumberCell(vs[i])
    ensures |ns| == |vs|
    ensures forall i :: 0 <= i < |vs| ==> vs[i] == Some(VNum(ns[i]))
  {
    seq(|vs|, i requires 0 <= i < |vs| && IsNumberCell(vs[i]) => vs[i].value.n)
  }

  /** `Math.min(...xs)` for a non-empty list. */
  function MinOf(xs: seq<int>): (m: int)
    requires |xs| > 0
    ensures m in xs
    ensures forall i :: 0 <= i < |xs| ==> m <= xs[i]
  {
    if |xs| == 1 then xs[0]
    else var rest := MinOf(xs[1..]); if xs[0] <= rest then xs[0] else rest
  }

  /** `Math.max(...xs)` for a non-empty list. */
  function MaxOf(xs: seq<int>): (m: int)
    requires |xs| > 0
    ensures m in xs
    ensures forall i :: 0 <= i < |xs| ==> xs[i] <= m
  {
    if |xs| == 1 then xs[0]
    else var rest := MaxOf(xs[1..]); if xs[0] >= rest then xs[0] else rest
  }

  predicate AllNumbers(vs: seq<Option<Value>>) {
    forall i :: 0 <= i < |vs| ==> IsNumberCell(vs[i])
  }

  /** The minimum and maximum of an all-numeric column bound every value in it
      and are both attained. */
  lemma NumericExtent(data: seq<Row>, key: string)
    requires |data| > 0 && AllNumbers(ColumnValues(data, key))
    ensures var ns := Numbers(ColumnValues(data, key));
      && (forall i :: 0 <= i < |data| ==> MinOf(ns) <= Lookup(data[i], key).value.n <= MaxOf(ns))
      && (exists i :: 0 <= i < |data| && Lookup(data[i], key) == Some(VNum(MinOf(ns))))
      && (exists i :: 0 <= i < |data| && Lookup(data[i], key) == Some(VNum(MaxOf(ns))))
  {
    var vs := ColumnValues(data, key);
    var ns := Numbers(vs);
    forall i | 0 <= i < |data| ensures Lookup(data[i], key) == Some(VNum(ns[i])) {
      assert vs[i] == Lookup(data[i], key);
    }
    var a :| 0 <= a < |ns| && ns[a] == MinOf(ns);
    var b :| 0 <= b < |ns| && ns[b] == MaxOf(ns);
    assert Lookup(data[a], key) == Some(VNum(MinOf(ns)));
    assert Lookup(data[b], key) == Some(VNum(MaxOf(ns)));
  }

  /** The configuration inferred for column `key` from non-empty data: `number`
      when every value is a number (with its observed minimum and maximum), else
      `boolean` when the first value is a boolean, else `string`. */
  function InferConfig(data: seq<Row>, key: string): (c: FilterConfig)
    requires |data| > 0
    ensures c.key == key
    ensures c.kind == NumberType <==> forall i :: 0 <= i < |data| ==> IsNumberCell(Lookup(data[i], key))
    ensures c.kind == BooleanType <==>
      c.kind != NumberType && Lookup(data[0], key).Some? && Lookup(data[0], key).value.VBool?
    ensures c.kind == NumberType ==>
      && c.min.Some? && c.max.Some?
      && (forall i :: 0 <= i < |data| ==> c.min.value <= Lookup(data[i], key).value.n <= c.max.value)
      && (exists i :: 0 <= i < |data| && Lookup(data[i], key) == Some(VNum(c.min.value)))
      && (exists i :: 0 <= i < |data| && Lookup(data[i], key) == Some(VNum(c.max.value)))
    ensures c.kind != NumberType ==> c.min.None? && c.max.None?
  {
    var vs := ColumnValues(data, key);
    if AllNumbers(vs) then
      NumericExtent(data, key);
      FilterConfig(key, NumberType, Some(MinOf(Numbers(vs))), Some(MaxOf(Numbers(vs))))
    else if vs[0].Some? && vs[0].value.VBool? then
      FilterConfig(key, BooleanType, None, None)
    else
      FilterConfig(key, StringType, None, None)
  }

  /** The inference effect: re-run for every column when there is data; with no
      data the previous configuration stays. The active filters are untouched. */
  function RefreshConfigs(t: ToolbarState, data: seq<Row>, columnNames: seq<string>): (r: ToolbarState)
    ensures |data| == 0 ==> r == t
    ensures |data| > 0 ==> |r.configs| == |columnNames|
    ensures |data| > 0 ==> forall i :: 0 <= i < |columnNames| ==> r.configs[i] == InferConfig(data, columnNames[i])
    ensures r.filters == t.filters && r.resetCounter == t.resetCounter
  {
    if |data| > 0 then
      t.(configs := seq(|columnNames|, i requires 0 <= i < |columnNames| => InferConfig(data, columnNames[i])))
    else t
  }

  // --------------------------------------------------------------- evaluation

  /** JavaScript's conversion of a cell for `>=`/`<=` against a number; `None` is NaN. */
  function ToNumber(v: Option<Value>): (r: Option<int>)
    ensures r.None? <==> v.None? || v.value.VStr?
    ensures v == Some(VNull) ==> r == Some(0)
    ensures v.Some? && v.value.VBool? ==> r == Some(if v.value.b then 1 else 0)
    ensures v.Some? && v.value.VNum? ==> r == Some(v.value.n)
  {
    match v
    case None => None
    case Some(VNull) => Some(0)
    case Some(VBool(b)) => Some(if b then 1 else 0)
    case Some(VNum(n)) => Some(n)
    case Some(VStr(_)) => None
  }

  /** `v.toString()`; `None` when `v` is `null` or `undefined`, where it throws. */
  function ToJsString(v: Option<Value>): (r: Option<string>)
    ensures r.None? <==> v.None? || v == Some(VNull)
    ensures v.Some? && v.value.VStr? ==> r == Some(v.value.s)
    ensures v.Some? && v.value.VNum? ==> ParseInt(r.value) == Some(v.value.n) && CanonicalInt(r.value)
    ensures v.Some? && v.value.VBool? ==> r == Some(if v.value.b then "true" else "false")
  {
    match v
    case None => None
    case Some(VNull) => None
    case Some(VBool(b)) => Some(if b then "true" else "false")
    case Some(VNum(n)) =>
      ParseIntToString(n);
      Some(IntToString(n))
    case Some(VStr(s)) => Some(s)
  }

  /** `rowValue === filter.value`: a slider range is a fresh array, equal to nothing. */
  function StrictEquals(v: Option<Value>, fv: FilterValue): (r: bool)
    ensures fv.Range? ==> !r
    ensures r <==> (v.Some? &&
      ((v.value.VBool? && fv == Flag(v.value.b)) || (v.value.VStr? && fv == Text(v.value.s))))
  {
    match fv
    case Flag(b) => v == Some(VBool(b))
    case Text(t) => v == Some(VStr(t))
    case Range(_, _) => false
  }

  /** One filter applied to one row: `Some(admitted)`, or `None` when the
      evaluation throws. */
  function EvalFilter(f: Filter, row: Row): (r: Option<bool>)
    ensures var v := Lookup(row, f.key);
      f.kind == NumberType && f.value.Range? && v.Some? && v.value.VNum? ==>
        r == Some(f.value.lo <= v.value.n <= f.value.hi)
    ensures f.kind == NumberType && f.value.Range? && Lookup(row, f.key).None? ==> r == Some(false)
    ensures f.kind == NumberType ==> (r.None? <==> f.value.Flag?)
    ensures var v := Lookup(row, f.key);
      f.kind == StringType ==> (r.None? <==> v.None? || v == Some(VNull) || !f.value.Text?)
    ensures var v := Lookup(row, f.key);
      f.kind == StringType && f.value.Text? && v.Some? && v.value.VStr? ==>
        r == Some(Contains(Lower(v.value.s), Lower(f.value.t)))
    ensures var v := ToJsString(Lookup(row, f.key));
      f.kind == StringType && f.value.Text? && v.Some? ==>
        r == Some(Contains(Lower(v.value), Lower(f.value.t)))
    ensures var n := ToNumber(Lookup(row, f.key));
      f.kind == NumberType && f.value.Range? ==>
        r == Some(n.Some? && f.value.lo <= n.value <= f.value.hi)
    ensures f.kind == BooleanType ==> r.Some?
    ensures f.kind == BooleanType && f.value.Flag? ==>
      (r == Some(true) <==> Lookup(row, f.key) == Some(VBool(f.value.b)))
  {
    var v := Lookup(row, f.key);
    match f.kind
    case NumberType =>
      (match f.value
       case Range(lo, hi) =>
         (match ToNumber(v)
          case None => Some(false)
          case Some(n) => Some(lo <= n && n <= hi))
       case Flag(_) => None
       case Text(_) => Some(false))
    case StringType =>
      (match (ToJsString(v), f.value)
       case (Some(s), Text(t)) => Some(Contains(Lower(s), Lower(t)))
       case _ => None)
    case BooleanType =>
      Some(StrictEquals(v, f.value))
  }

  /** Each filter's verdict on `row`, in list order. */
  function Verdicts(fs: seq<Filter>, row: Row): (vs: seq<Option<bool>>)
    ensures |vs| == |fs|
    ensures forall i :: 0 <= i < |fs| ==> vs[i] == EvalFilter(fs[i], row)
  {
    seq(|fs|, i requires 0 <= i < |fs| => EvalFilter(fs[i], row))
  }

  /** `every` over verdicts: the first verdict that is not `true` decides
      (evaluation is pure, so the verdicts after it are never observed). */
  function FirstFailure(vs: seq<Option<bool>>): (r: Option<bool>)
    ensures r == Some(true) <==> forall i :: 0 <= i < |vs| ==> vs[i] == Some(true)
    ensures r.None? <==>
      exists i :: 0 <= i < |vs| && vs[i].None? && forall j :: 0 <= j < i ==> vs[j] == Some(true)
    decreases |vs|
  {
    if |vs| == 0 then Some(true)
    else match vs[0]
      case None => None
      case Some(false) => Some(false)
      case Some(true) =>
        var r := FirstFailure(vs[1..]);
        assert forall i :: 1 <= i < |vs| ==> vs[i] == vs[1..][i - 1];
        r
  }

  /** `filters.every(...)`: stops at the first filter that rejects or throws. */
  function Every(fs: seq<Filter>, row: Row): (r: Option<bool>)
    ensures r == Some(true) <==> forall i :: 0 <= i < |fs| ==> EvalFilter(fs[i], row) == Some(true)
    ensures r.None? <==>
      exists i :: 0 <= i < |fs| && EvalFilter(fs[i], row).None?
        && forall j :: 0 <= j < i ==> EvalFilter(fs[j], row) == Some(true)
  {
    FirstFailure(Verdicts(fs, row))
  }

  /** The composed row predicate: every row passes an empty filter list, and
      otherwise a row passes when every filter admits it. */
  function Admits(fs: seq<Filter>, row: Row): (r: Option<bool>)
    ensures |fs| == 0 ==> r == Some(true)
    ensures r == Some(true) <==> forall i :: 0 <= i < |fs| ==> EvalFilter(fs[i], row) == Some(true)
  {
    if |fs| == 0 then Some(true) else Every(fs, row)
  }

  /** Filters compose by intersection: a row passes two filter lists one after
      the other exactly when it passes each. */
  lemma AdmitsConcat(fs: seq<Filter>, gs: seq<Filter>, row: Row)
    ensures Admits(fs + gs, row) == Some(true) <==>
      Admits(fs, row) == Some(true) && Admits(gs, row) == Some(true)
  {
    var all := fs + gs;
    assert forall i :: 0 <= i < |fs| ==> all[i] == fs[i];
    assert forall i :: 0 <= i < |gs| ==> all[|fs| + i] == gs[i];
  }

  /** The text filter ignores the case of its query. */
  lemma TextFilterIgnoresCase(key: string, t: string, row: Row)
    ensures EvalFilter(Filter(key, StringType, Text(t)), row)
         == EvalFilter(Filter(key, StringType, Text(Lower(t))), row)
  {
    LowerIdempotent(t);
  }

  // ------------------------------------------------------------- filter list

  function KeyIs(key: string): Filter -> bool {
    (f: Filter) => f.key == key
  }

  function KeyIsNot(key: string): Filter -> bool {
    (f: Filter) => f.key != key
  }

  predicate HasKey(fs: seq<Filter>, key: string) {
    exists i :: 0 <= i < |fs| && fs[i].key == key
  }

  /** No two filters share a key. */
  predicate UniqueKeys(fs: seq<Filter>) {
    forall i, j :: 0 <= i < j < |fs| ==> fs[i].key != fs[j].key
  }

  /** `getFilter`: the first filter for `key`. */
  function GetFilter(fs: seq<Filter>, key: string): (r: Option<Filter>)
    ensures r.None? <==> !HasKey(fs, key)
    ensures r.Some? ==> r.value.key == key
    ensures r.Some? ==>
      exists i :: 0 <= i < |fs| && fs[i] == r.value && forall j :: 0 <= j < i ==> fs[j].key != key
  {
    match IndexOf(fs, KeyIs(key))
    case None =>
      assert forall j :: 0 <= j < |fs| ==> !KeyIs(key)(fs[j]);
      None
    case Some(i) =>
      assert forall j :: 0 <= j < i ==> !KeyIs(key)(fs[j]);
      Some(fs[i])
  }

  /** `updateFilter`: replace the first filter with the same key in place, or
      append when there is none. */
  function UpdateFilter(fs: seq<Filter>, f: Filter): (r: seq<Filter>)
    ensures !HasKey(fs, f.key) ==> r == fs + [f]
    ensures HasKey(fs, f.key) ==>
      && |r| == |fs|
      && (exists i :: 0 <= i < |fs| && fs[i].key == f.key && r == fs[i := f]
            && forall j :: 0 <= j < i ==> fs[j].key != f.key)
  {
    match IndexOf(fs, KeyIs(f.key))
    case Some(i) =>
      assert forall j :: 0 <= j < i ==> !KeyIs(f.key)(fs[j]);
      fs[i := f]
    case None =>
      assert forall j :: 0 <= j < |fs| ==> !KeyIs(f.key)(fs[j]);
      fs + [f]
  }

  /** `removeFilter`: drop every filter for `key`, keeping the rest in order. */
  function RemoveFilter(fs: seq<Filter>, key: string): (r: seq<Filter>)
    ensures !HasKey(r, key)
    ensures forall i :: 0 <= i < |r| ==> r[i] in fs
    ensures forall i :: 0 <= i < |fs| && fs[i].key != key ==> fs[i] in r
    ensures IsSubsequence(r, fs)
  {
    var r := Keep(fs, KeyIsNot(key));
    assert forall i :: 0 <= i < |r| ==> KeyIsNot(key)(r[i]);
    r
  }

  /** After an upsert, looking the key up finds the new filter. */
  lemma GetAfterUpdate(fs: seq<Filter>, f: Filter)
    ensures GetFilter(UpdateFilter(fs, f), f.key) == Some(f)
  {
    var r := UpdateFilter(fs, f);
    var i: nat;
    if !HasKey(fs, f.key) {
      i := |fs|;
      assert r[i] == f;
    } else {
      i :| 0 <= i < |fs| && fs[i].key == f.key && r == fs[i := f]
            && forall j :: 0 <= j < i ==> fs[j].key != f.key;
    }
    assert forall j :: 0 <= j < i ==> r[j].key != f.key;
    var g := GetFilter(r, f.key);
    assert HasKey(r, f.key) by { assert r[i].key == f.key; }
    var k :| 0 <= k < |r| && r[k] == g.value && forall j :: 0 <= j < k ==> r[j].key != f.key;
    FirstIndexUnique(r, f.key, i, k);
  }

  /** An upsert leaves the filters for other keys as they were. */
  lemma GetOtherAfterUpdate(fs: seq<Filter>, f: Filter, key: string)
    requires key != f.key
    ensures GetFilter(UpdateFilter(fs, f), key) == GetFilter(fs, key)
  {
    var r := UpdateFilter(fs, f);
    var a := GetFilter(fs, key);
    var b := GetFilter(r, key);
    if !HasKey(fs, f.key) {
      assert forall i :: 0 <= i < |fs| ==> r[i] == fs[i];
      assert r[|fs|].key != key;
    } else {
      assert forall i :: 0 <= i < |fs| ==> (r[i].key == key <==> fs[i].key == key);
      assert forall i :: 0 <= i < |fs| && fs[i].key == key ==> r[i] == fs[i];
    }
    if a.Some? && b.Some? {
      var i :| 0 <= i < |fs| && fs[i] == a.value && forall j :: 0 <= j < i ==> fs[j].key != key;
      var k :| 0 <= k < |r| && r[k] == b.value && forall j :: 0 <= j < k ==> r[j].key != key;
      assert r[i] == fs[i];
      FirstIndexUnique(r, key, i, k);
    }
  }

  /** Two positions that are each the first with a given key are the same. */
  lemma FirstIndexUnique(fs: seq<Filter>, key: string, i: nat, k: nat)
    requires i < |fs| && k < |fs| && fs[i].key == key && fs[k].key == key
    requires forall j :: 0 <= j < i ==> fs[j].key != key
    requires forall j :: 0 <= j < k ==> fs[j].key != key
    ensures i == k
  {
  }

  /** Upserting keeps filter keys unique. */
  lemma UpdateKeepsKeysUnique(fs: seq<Filter>, f: Filter)
    requires UniqueKeys(fs)
    ensures UniqueKeys(UpdateFilter(fs, f))
  {
  }

  /** Removing keeps filter keys unique. */
  lemma {:induction false} RemoveKeepsKeysUnique(fs: seq<Filter>, key: string)
    requires UniqueKeys(fs)
    ensures UniqueKeys(RemoveFilter(fs, key))
    decreases |fs|
  {
    if |fs| > 0 {
      assert UniqueKeys(fs[1..]);
      RemoveKeepsKeysUnique(fs[1..], key);
      var rest := RemoveFilter(fs[1..], key);
      RemoveFilterCons(fs, key);
      if fs[0].key != key {
        forall i | 0 <= i < |rest| ensures rest[i].key != fs[0].key {
          var j :| 0 <= j < |fs[1..]| && fs[1..][j] == rest[i];
          assert fs[j + 1] == rest[i];
        }
        UniqueKeysCons(fs[0], rest);
      }
    }
  }

  /** `RemoveFilter` one filter at a time. */
  lemma RemoveFilterCons(fs: seq<Filter>, key: string)
    requires |fs| > 0
    ensures RemoveFilter(fs, key) ==
      if fs[0].key != key then [fs[0]] + RemoveFilter(fs[1..], key) else RemoveFilter(fs[1..], key)
  {
  }

  lemma UniqueKeysCons(f: Filter, fs: seq<Filter>)
    requires UniqueKeys(fs)
    requires forall i :: 0 <= i < |fs| ==> fs[i].key != f.key
    ensures UniqueKeys([f] + fs)
  {
    var r := [f] + fs;
    forall i, j | 0 <= i < j < |r| ensures r[i].key != r[j].key {
      assert r[j] == fs[j - 1];
      if i > 0 {
        assert r[i] == fs[i - 1];
      }
    }
  }

  /** `undefined`, `null` and the empty string clear a filter. A cleared
      checkbox passes `false`, which is not blank. */
  function IsBlank(input: FilterInput): (r: bool)
    ensures !input.Given? ==> r
    ensures input.Given? ==> (r <==> input.v == Text(""))
    ensures input.Given? && (input.v.Flag? || input.v.Range?) ==> !r
  {
    input.Undefined? || input.Null? || input == Given(Text(""))
  }

  /** The toolbar's `handleFilterChange`: a blank input removes the key's filters;
      otherwise, when the key has an inferred configuration, the filter is upserted
      with that configuration's type, and without one nothing changes. */
  function HandleFilterChange(t: ToolbarState, key: string, input: FilterInput): (r: ToolbarState)
    ensures r.configs == t.configs && r.resetCounter == t.resetCounter
    ensures IsBlank(input) ==> r.filters == RemoveFilter(t.filters, key)
    ensures !IsBlank(input) && (forall i :: 0 <= i < |t.configs| ==> t.configs[i].key != key) ==> r == t
    ensures !IsBlank(input) && (exists i :: 0 <= i < |t.configs| && t.configs[i].key == key) ==>
      exists c :: c in t.configs && c.key == key &&
        r.filters == UpdateFilter(t.filters, Filter(key, c.kind, input.v))
  {
    if IsBlank(input) then
      t.(filters := RemoveFilter(t.filters, key))
    else
      match IndexOf(t.configs, (c: FilterConfig) => c.key == key)
      case None => t
      case Some(i) =>
        t.(filters := UpdateFilter(t.filters, Filter(key, t.configs[i].kind, input.v)))
  }

  /** A filter change keeps filter keys unique. */
  lemma HandleFilterChangeKeepsKeysUnique(t: ToolbarState, key: string, input: FilterInput)
    requires UniqueKeys(t.filters)
    ensures UniqueKeys(HandleFilterChange(t, key, input).filters)
  {
    if IsBlank(input) {
      RemoveKeepsKeysUnique(t.filters, key);
    } else {
      UpdateKeepsKeysUnique(t.filters, Filter(key, BooleanType, input.v));
      forall k: ColumnType ensures UniqueKeys(UpdateFilter(t.filters, Filter(key, k, input.v))) {
        UpdateKeepsKeysUnique(t.filters, Filter(key, k, input.v));
      }
    }
  }

  /** After a non-blank change for a configured key, `getFilter` finds the value
      that was set; after a blank one, it finds nothing. */
  lemma HandleFilterChangeThenGet(t: ToolbarState, key: string, input: FilterInput)
    ensures IsBlank(input) ==> GetFilter(HandleFilterChange(t, key, input).filters, key).None?
    ensures !IsBlank(input) && (exists i :: 0 <= i < |t.configs| && t.configs[i].key == key) ==>
      exists k :: GetFilter(HandleFilterChange(t, key, input).filters, key) == Some(Filter(key, k, input.v))
  {
    if !IsBlank(input) && exists i :: 0 <= i < |t.configs| && t.configs[i].key == key {
      var c :| c in t.configs && c.key == key &&
        HandleFilterChange(t, key, input).filters == UpdateFilter(t.filters, Filter(key, c.kind, input.v));
      GetAfterUpdate(t.filters, Filter(key, c.kind, input.v));
    }
  }

  /** Unchecking a boolean filter's checkbox stores `false` rather than removing
      the filter, which then admits only rows whose value is `false`. */
  lemma UncheckedBoxKeepsFilter(t: ToolbarState, key: string, row: Row)
    requires exists i :: 0 <= i < |t.configs| && t.configs[i].key == key
    requires forall i :: 0 <= i < |t.configs| && t.configs[i].key == key ==> t.configs[i].kind == BooleanType
    ensures GetFilter(HandleFilterChange(t, key, Given(Flag(false))).filters, key)
         == Some(Filter(key, BooleanType, Flag(false)))
    ensures EvalFilter(Filter(key, BooleanType, Flag(false)), row) == Some(true) <==>
      Lookup(row, key) == Some(VBool(false))
  {
    var c :| c in t.configs && c.key == key &&
      HandleFilterChange(t, key, Given(Flag(false))).filters
        == UpdateFilter(t.filters, Filter(key, c.kind, Flag(false)));
    assert c.kind == BooleanType;
    GetAfterUpdate(t.filters, Filter(key, BooleanType, Flag(false)));
  }

  /** `resetFilters`: clear every filter and bump the counter that remounts the
      filter controls. */
  function ResetFilters(t: ToolbarState): (r: ToolbarState)
    ensures r.filters == []
    ensures r.resetCounter > t.resetCounter
    ensures r.configs == t.configs
  {
    t.(filters := [], resetCounter := t.resetCounter + 1)
  }

  /** After a reset the composed predicate admits every row. */
  lemma ResetAdmitsAll(t: ToolbarState, row: Row)
    ensures Admits(ResetFilters(t).filters, row) == Some(true)
  {
  }
}

=== FILE: rows.dfy ===
/** The records the table displays. A JavaScript record is a plain object: an
    ordered list of named fields (the order `Object.keys` reports) behind an
    object reference. */
module Rows {
  import opened Wrappers
  import Seqs

  /** A field value: a number (integers only), a string, a boolean or `null`.
      An absent field (`undefined`) is a `None` from `Lookup`. */
  datatype Value = VNum(n: int) | VStr(s: string) | VBool(b: bool) | VNull

  datatype Cell = Cell(name: string, value: Value)

  /** A record. `ref` stands for the object's reference: `===` between records
      compares `ref` only, so two records with equal fields but different
      references are different rows. */
  datatype Row = Row(ref: nat, cells: seq<Cell>)

  /** `Object.keys(row)`, in declaration order. */
  function Keys(r: Row): (ks: seq<string>)
    ensures |ks| == |r.cells|
    ensures forall i :: 0 <= i < |ks| ==> ks[i] == r.cells[i].name
  {
    seq(|r.cells|, i requires 0 <= i < |r.cells| => r.cells[i].name)
  }

  function NamedAs(key: string): Cell -> bool {
    (c: Cell) => c.name == key
  }

  /** `row[key]`: the value of the field named `key`, `None` for `undefined`. */
  function Lookup(r: Row, key: string): (v: Option<Value>)
    ensures v.None? <==> key !in Keys(r)
    ensures v.Some? ==> exists i :: 0 <= i < |r.cells| && r.cells[i] == Cell(key, v.value)
  {
    match Seqs.IndexOf(r.cells, NamedAs(key))
    case None =>
      assert forall i :: 0 <= i < |r.cells| ==> Keys(r)[i] != key by {
        forall i | 0 <= i < |r.cells| ensures Keys(r)[i] != key {
          assert !NamedAs(key)(r.cells[i]);
        }
      }
      None
    case Some(i) =>
      assert Keys(r)[i] == key;
      Some(r.cells[i].value)
  }

  /** `rows.some(r => r === x)`, equivalently `rows.includes(x)` for objects. */
  predicate ContainsRef(rows: seq<Row>, x: Row) {
    exists i :: 0 <= i < |rows| && rows[i].ref == x.ref
  }

  function SameRefAs(x: Row): Row -> bool {
    (r: Row) => r.ref == x.ref
  }
}

=== FILE: seqs.dfy ===
/** Sequence operations that mirror the JavaScript array methods the component uses. */
module Seqs {
  import opened Wrappers

  function Min(a: int, b: int): int { if a <= b then a else b }

  /** `Array.prototype.findIndex`: the index of the first element satisfying `p`;
      `None` stands for `-1`. */
  function IndexOf<T>(s: seq<T>, p: T -> bool): (r: Option<nat>)
    ensures r.Some? ==> r.value < |s| && p(s[r.value])
    ensures r.Some? ==> forall j :: 0 <= j < r.value ==> !p(s[j])
    ensures r.None? <==> forall j :: 0 <= j < |s| ==> !p(s[j])
  {
    if |s| == 0 then None
    else if p(s[0]) then Some(0)
    else match IndexOf(s[1..], p)
      case None => None
      case Some(i) => Some(i + 1)
  }

  /** `a` is obtained from `b` by deleting elements, keeping the order of the rest. */
  ghost predicate IsSubsequence<T>(a: seq<T>, b: seq<T>)
    decreases |b|
  {
    if |a| == 0 then true
    else if |b| == 0 then false
    else (a[0] == b[0] && IsSubsequence(a[1..], b[1..])) || IsSubsequence(a, b[1..])
  }

  /** `Array.prototype.filter`: the elements satisfying `p`, in their original order. */
  function Keep<T>(s: seq<T>, p: T -> bool): (r: seq<T>)
    ensures |r| <= |s|
    ensures forall i :: 0 <= i < |r| ==> r[i] in s && p(r[i])
    ensures forall i :: 0 <= i < |s| && p(s[i]) ==> s[i] in r
    ensures IsSubsequence(r, s)
    ensures forall i :: 0 <= i < |s| ==> multiset(r)[s[i]] == if p(s[i]) then multiset(s)[s[i]] else 0
    decreases |s|
  {
    if |s| == 0 then []
    else
      var rest := Keep(s[1..], p);
      var r := if p(s[0]) then [s[0]] + rest else rest;
      KeepCountStep(s, p, rest, r);
      r
  }

  /** One step of the count in `Keep`: each element keeps all its copies when it
      passes and none when it does not. */
  lemma KeepCountStep<T>(s: seq<T>, p: T -> bool, rest: seq<T>, r: seq<T>)
    requires |s| > 0
    requires forall i :: 0 <= i < |rest| ==> rest[i] in s[1..]
    requires forall i :: 0 <= i < |s[1..]| ==>
      multiset(rest)[s[1..][i]] == if p(s[1..][i]) then multiset(s[1..])[s[1..][i]] else 0
    requires r == if p(s[0]) then [s[0]] + rest else rest
    ensures forall i :: 0 <= i < |s| ==> multiset(r)[s[i]] == if p(s[i]) then multiset(s)[s[i]] else 0
  {
    assert s == [s[0]] + s[1..];
    forall i | 0 <= i < |s|
      ensures multiset(r)[s[i]] == if p(s[i]) then multiset(s)[s[i]] else 0
    {
      var x := s[i];
      if x in s[1..] {
        var j :| 0 <= j < |s[1..]| && s[1..][j] == x;
      } else {
        assert x !in rest;
      }
    }
  }

  /** Some element satisfies `p` (`Array.prototype.some`). */
  predicate Any<T>(s: seq<T>, p: T -> bool) {
    exists i :: 0 <= i < |s| && p(s[i])
  }

  /** Some element satisfies `p` exactly when the first does or one of the rest does. */
  lemma AnyCons<T>(s: seq<T>, p: T -> bool)
    requires |s| > 0
    ensures Any(s, p) <==> p(s[0]) || Any(s[1..], p)
  {
    if Any(s[1..], p) {
      var i :| 0 <= i < |s[1..]| && p(s[1..][i]);
      assert s[1..][i] == s[i + 1];
    }
    if Any(s, p) && !p(s[0]) {
      var i :| 0 <= i < |s| && p(s[i]);
      assert s[i] == s[1..][i - 1];
    }
  }

  /** Filtering twice by the same predicate is filtering once. */
  lemma {:induction false} KeepIdempotent<T>(s: seq<T>, p: T -> bool)
    ensures Keep(Keep(s, p), p) == Keep(s, p)
    decreases |s|
  {
    if |s| > 0 {
      KeepIdempotent(s[1..], p);
      if p(s[0]) {
        assert ([s[0]] + Keep(s[1..], p))[1..] == Keep(s[1..], p);
      }
    }
  }

  /** Two filters in a row are one filter by their conjunction. */
  lemma {:induction false} KeepKeep<T>(s: seq<T>, p: T -> bool, q: T -> bool, pq: T -> bool)
    requires forall x :: pq(x) == (p(x) && q(x))
    ensures Keep(Keep(s, p), q) == Keep(s, pq)
    decreases |s|
  {
    if |s| > 0 {
      KeepKeep(s[1..], p, q, pq);
      if p(s[0]) {
        assert ([s[0]] + Keep(s[1..], p))[1..] == Keep(s[1..], p);
      }
    }
  }

  /** `s.slice(start, start + len)` for non-negative arguments: JavaScript clamps
      both ends to the length, so a window past the end is empty. */
  function Window<T>(s: seq<T>, start: nat, len: nat): (r: seq<T>)
    ensures |r| == if start >= |s| then 0 else Min(len, |s| - start)
    ensures forall k :: 0 <= k < |r| ==> r[k] == s[start + k]
  {
    var lo := if start < |s| then start else |s|;
    var hi := if start + len < |s| then start + len else |s|;
    s[lo..hi]
  }

  /** `Array.prototype.join(sep)` over strings. */
  function Join(parts: seq<string>, sep: char): string
    decreases |parts|
  {
    if |parts| == 0 then ""
    else if |parts| == 1 then parts[0]
    else parts[0] + [sep] + Join(parts[1..], sep)
  }

  /** `String.prototype.split(sep)`: the empty string splits into one empty piece. */
  function Split(s: string, sep: char): (r: seq<string>)
    ensures |r| > 0
    decreases |s|
  {
    if |s| == 0 then [""]
    else if s[0] == sep then [""] + Split(s[1..], sep)
    else var rest := Split(s[1..], sep); [[s[0]] + rest[0]] + rest[1..]
  }

  /** A string without the separator splits into itself. */
  lemma {:induction false} SplitNoSep(p: string, sep: char)
    requires sep !in p
    ensures Split(p, sep) == [p]
    decreases |p|
  {
    if |p| > 0 {
      SplitNoSep(p[1..], sep);
      assert [p[0]] + p[1..] == p;
    }
  }

  /** Splitting `p + sep + rest` peels off `p` when `p` holds no separator. */
  lemma {:induction false} SplitPrefix(p: string, sep: char, rest: string)
    requires sep !in p
    ensures Split(p + [sep] + rest, sep) == [p] + Split(rest, sep)
    decreases |p|
  {
    var t := p + [sep] + rest;
    if |p| == 0 {
      assert t[0] == sep && t[1..] == rest;
    } else {
      assert t[0] == p[0];
      assert t[1..] == p[1..] + [sep] + rest;
      SplitPrefix(p[1..], sep, rest);
      assert [p[0]] + p[1..] == p;
    }
  }

  /** Joining pieces free of the separator and splitting again gives the pieces back. */
  lemma {:induction false} SplitJoin(parts: seq<string>, sep: char)
    requires |parts| > 0
    requires forall i :: 0 <= i < |parts| ==> sep !in parts[i]
    ensures Split(Join(parts, sep), sep) == parts
    decreases |parts|
  {
    if |parts| == 1 {
      SplitNoSep(parts[0], sep);
    } else {
      SplitJoin(parts[1..], sep);
      SplitPrefix(parts[0], sep, Join(parts[1..], sep));
      assert [parts[0]] + parts[1..] == parts;
    }
  }

  /** A character that is neither the separator nor in any piece is not in the join. */
  lemma {:induction false} JoinExcludes(parts: seq<string>, sep: char, c: char)
    requires c != sep
    requires forall i :: 0 <= i < |parts| ==> c !in parts[i]
    ensures c !in Join(parts, sep)
    decreases |parts|
  {
    if |parts| > 1 {
      JoinExcludes(parts[1..], sep, c);
    }
  }
}

=== FILE: sorting.dfy ===
/** The sort stage. JavaScript's `Array.prototype.sort` is stable; given a
    comparator that is a total preorder it returns the one stable sorted
    permutation, which the insertion sort below computes. The ordering `le`
    (`compare(a, b) <= 0`) is a parameter: the comparator factory itself is not
    part of this model. */
module Sorting {

  ghost predicate Total<T(!new)>(le: (T, T) -> bool) {
    forall a, b :: le(a, b) || le(b, a)
  }

  /** Every element is ordered before its successor. */
  ghost predicate Sorted<T>(s: seq<T>, le: (T, T) -> bool) {
    forall i :: 0 <= i && i + 1 < |s| ==> le(s[i], s[i + 1])
  }

  /** Inserts `x` before the first element it is ordered before, so that `x`
      precedes the elements it ties with. */
  function Insert<T(!new)>(x: T, s: seq<T>, le: (T, T) -> bool): (r: seq<T>)
    ensures |r| == |s| + 1
    ensures multiset(r) == multiset(s) + multiset{x}
    ensures r[0] == x || (|s| > 0 && r[0] == s[0])
    ensures Total(le) && Sorted(s, le) ==> Sorted(r, le)
    decreases |s|
  {
    if |s| == 0 then [x]
    else if le(x, s[0]) then [x] + s
    else
      assert s == [s[0]] + s[1..];
      [s[0]] + Insert(x, s[1..], le)
  }

  /** The stable sort of `s` by `le`. */
  function Sort<T(!new)>(s: seq<T>, le: (T, T) -> bool): (r: seq<T>)
    ensures |r| == |s|
    ensures multiset(r) == multiset(s)
    ensures Total(le) ==> Sorted(r, le)
    decreases |s|
  {
    if |s| == 0 then []
    else
      assert s == [s[0]] + s[1..];
      Insert(s[0], Sort(s[1..], le), le)
  }

  /** Sorting keeps exactly the elements it was given. */
  lemma SortMembers<T(!new)>(s: seq<T>, le: (T, T) -> bool, x: T)
    ensures x in Sort(s, le) <==> x in s
  {
    assert x in Sort(s, le) <==> x in multiset(Sort(s, le));
    assert x in s <==> x in multiset(s);
  }
}

=== FILE: table.dfy ===
/** The table view-model (src/components/MUITable.tsx): the state record, the
    event handlers as state-to-state functions, and the derivation effect
    filter -> search -> sort -> paginate -> reconcile selection as a pure
    function. */
module Table {
  import opened Wrappers
  import opened Seqs
  import opened Text
  import opened Rows
  import opened Sorting
  import Filters

  datatype Order = Asc | Desc

  datatype Column = Column(name: string, labelText: Option<string>)

  /** A positive rows-per-page count. */
  type PageSize = n: nat | n > 0 witness 5

  /** The comparator factory: for a direction and sort key, whether `a` sorts
      no later than `b`. The factory lives outside this model and is a parameter. */
  type Comparator = (Order, Option<string>) -> (Row, Row) -> bool

  /** The component state. `filters` stands for `filterFunc`: the composed
      predicate of that filter list (the initial `() => true` is the empty list).
      `orderBy` is `None` when it is `undefined`. */
  datatype ViewState = ViewState(
    order: Order,
    orderBy: Option<string>,
    selected: seq<Row>,
    page: nat,
    rowsPerPage: PageSize,
    searchQuery: string,
    filters: seq<Filters.Filter>,
    currentData: seq<Row>,
    visibleRows: seq<Row>,
    emptyRows: nat)

  // ------------------------------------------------------------ configuration

  /** `getDefaultOrderByKey`: `"id"` for empty data; the requested key when it is
      non-empty and among the first record's keys; otherwise `"id"` when that is
      a key, else the first key (`undefined` when the first record has none). */
  function DefaultOrderByKey(data: seq<Row>, defaultOrderBy: Option<string>): (r: Option<string>)
    ensures |data| == 0 ==> r == Some("id")
    ensures (|data| > 0 && defaultOrderBy.Some? && defaultOrderBy.value != ""
             && defaultOrderBy.value in Keys(data[0])) ==> r == defaultOrderBy
    ensures |data| > 0 && !(defaultOrderBy.Some? && defaultOrderBy.value != ""
            && defaultOrderBy.value in Keys(data[0])) ==>
      r == (if "id" in Keys(data[0]) then Some("id")
            else if |Keys(data[0])| == 0 then None
            else Some(Keys(data[0])[0]))
  {
    if |data| == 0 then Some("id")
    else
      var keys := Keys(data[0]);
      match defaultOrderBy
      case Some(k) =>
        if k != "" && k in keys then Some(k)
        else if "id" in keys then Some("id")
        else if |keys| == 0 then None
        else Some(keys[0])
      case None =>
        if "id" in keys then Some("id")
        else if |keys| == 0 then None
        else Some(keys[0])
  }

  /** The default sort key is always a field of the first record, unless there
      is no data (then it is `"id"`) or the first record has no fields. */
  lemma DefaultOrderByIsAKey(data: seq<Row>, defaultOrderBy: Option<string>)
    requires |data| > 0 && |data[0].cells| > 0
    ensures DefaultOrderByKey(data, defaultOrderBy).Some?
    ensures DefaultOrderByKey(data, defaultOrderBy).value in Keys(data[0])
  {
  }

  function NotExcluded(excluded: seq<string>): string -> bool {
    (k: string) => k !in excluded
  }

  function Names(cols: seq<Column>): (ns: seq<string>)
    ensures |ns| == |cols|
    ensures forall i :: 0 <= i < |cols| ==> ns[i] == cols[i].name
  {
    seq(|cols|, i requires 0 <= i < |cols| => cols[i].name)
  }

  /** `generateColumns`: one column per key of the first record that is not
      excluded, in key order, labelled with the key capitalized. */
  function GenerateColumns(data: seq<Row>, excluded: seq<string>): (cols: seq<Column>)
    ensures |data| == 0 ==> cols == []
    ensures forall i :: 0 <= i < |cols| ==>
      cols[i].name !in excluded && cols[i].labelText == Some(Capitalize(cols[i].name))
    ensures |data| > 0 ==> IsSubsequence(Names(cols), Keys(data[0]))
    ensures |data| > 0 ==> forall j :: 0 <= j < |Keys(data[0])| && Keys(data[0])[j] !in excluded ==>
      Keys(data[0])[j] in Names(cols)
  {
    if |data| == 0 then []
    else
      var names := Keep(Keys(data[0]), NotExcluded(excluded));
      assert forall i :: 0 <= i < |names| ==> NotExcluded(excluded)(names[i]);
      var cols := seq(|names|, i requires 0 <= i < |names| => Column(names[i], Some(Capitalize(names[i]))));
      assert Names(cols) == names;
      cols
  }

  /** `passedColumns || generateColumns()`: an explicit list, even an empty one,
      wins. */
  function EffectiveColumns(passed: Option<seq<Column>>, data: seq<Row>, excluded: seq<string>): (cols: seq<Column>)
    ensures passed.Some? ==> cols == passed.value
    ensures passed.None? ==> cols == GenerateColumns(data, excluded)
  {
    passed.GetOr(GenerateColumns(data, excluded))
  }

  /** The initial state built from the props. `currentData` is set here and
      never reassigned afterwards. */
  function Init(data: seq<Row>, defaultOrderBy: Option<string>, defaultOrder: Option<Order>): (s: ViewState)
    ensures s.order == defaultOrder.GetOr(Asc)
    ensures s.orderBy == DefaultOrderByKey(data, defaultOrderBy)
    ensures s.selected == [] && s.page == 0 && s.rowsPerPage == 5 && s.searchQuery == ""
    ensures forall row :: Filters.Admits(s.filters, row) == Some(true)
    ensures s.currentData == data
    ensures s.visibleRows == data && s.emptyRows == 0
  {
    ViewState(defaultOrder.GetOr(Asc), DefaultOrderByKey(data, defaultOrderBy), [], 0, 5, "", [], data, data, 0)
  }

  // --------------------------------------------------------------- derivation

  /** The search stage's test: some string-valued field contains the query
      after lower-casing. Fields of other types never match. */
  function MatchesSearch(row: Row, query: string): (r: bool)
    ensures r ==> exists i :: 0 <= i < |row.cells| && row.cells[i].value.VStr? && |query| <= |row.cells[i].value.s|
    ensures r ==> Lower(query) == query
  {
    assert forall i :: (0 <= i < |row.cells| && row.cells[i].value.VStr? && Contains(Lower(row.cells[i].value.s), query)
      ==> Lower(query) == query) by {
      forall i | 0 <= i < |row.cells| && row.cells[i].value.VStr? && Contains(Lower(row.cells[i].value.s), query) {
        ContainedInLowerIsLower(row.cells[i].value.s, query);
      }
    }
    exists i :: 0 <= i < |row.cells| && row.cells[i].value.VStr? && Contains(Lower(row.cells[i].value.s), query)
  }

  function SearchHit(query: string): Row -> bool {
    (row: Row) => MatchesSearch(row, query)
  }

  /** The search stage: the rows that match, in order. */
  function SearchRows(rows: seq<Row>, query: string): (r: seq<Row>)
    ensures forall i :: 0 <= i < |r| ==> r[i] in rows && MatchesSearch(r[i], query)
    ensures forall i :: 0 <= i < |rows| && MatchesSearch(rows[i], query) ==> rows[i] in r
    ensures IsSubsequence(r, rows)
    ensures forall i :: 0 <= i < |rows| ==>
      multiset(r)[rows[i]] == if MatchesSearch(rows[i], query) then multiset(rows)[rows[i]] else 0
  {
    var r := Keep(rows, SearchHit(query));
    assert forall i :: 0 <= i < |r| ==> SearchHit(query)(r[i]);
    assert forall i :: 0 <= i < |rows| ==> SearchHit(query)(rows[i]) == MatchesSearch(rows[i], query);
    r
  }

  /** Even with an empty query, the search stage keeps only the rows that have a
      string-valued field. */
  lemma EmptySearchNeedsAStringField(row: Row)
    ensures MatchesSearch(row, "") <==> exists i :: 0 <= i < |row.cells| && row.cells[i].value.VStr?
  {
  }

  function Passes(fs: seq<Filters.Filter>): Row -> bool {
    (row: Row) => Filters.Admits(fs, row) == Some(true)
  }

  function ThrowsOn(fs: seq<Filters.Filter>): Row -> bool {
    (row: Row) => Filters.Admits(fs, row).None?
  }

  /** Some row of `data` makes the predicate throw. */
  predicate Throws(data: seq<Row>, fs: seq<Filters.Filter>) {
    exists i :: 0 <= i < |data| && Filters.Admits(fs, data[i]).None?
  }

  /** A row throws exactly when the first one does or one of the rest does. */
  lemma ThrowsCons(data: seq<Row>, fs: seq<Filters.Filter>)
    requires |data| > 0
    ensures Throws(data, fs) <==> Filters.Admits(fs, data[0]).None? || Throws(data[1..], fs)
  {
    var p := ThrowsOn(fs);
    AnyCons(data, p);
    assert Throws(data, fs) == Any(data, p);
    assert Throws(data[1..], fs) == Any(data[1..], p);
  }

  /** The filter stage, `data.filter(filterFunc)`: it throws as soon as the
      predicate throws on some row. */
  function FilterRows(data: seq<Row>, fs: seq<Filters.Filter>): (r: Result<seq<Row>>)
    ensures r.TypeError? <==> exists i :: 0 <= i < |data| && Filters.Admits(fs, data[i]).None?
    ensures r.Ok? ==> r.value == Keep(data, Passes(fs))
    decreases |data|
  {
    if |data| == 0 then Ok([])
    else
      ThrowsCons(data, fs);
      var rest := FilterRows(data[1..], fs);
      match Filters.Admits(fs, data[0])
      case None => TypeError
      case Some(keep) =>
        match rest
        case TypeError => TypeError
        case Ok(kept) =>
          assert Passes(fs)(data[0]) == keep;
          Ok(if keep then [data[0]] + kept else kept)
  }

  /** The rows the pipeline shows, as one condition: passing the filters and
      matching the search. */
  function Visible(fs: seq<Filters.Filter>, query: string): Row -> bool {
    (row: Row) => Filters.Admits(fs, row) == Some(true) && MatchesSearch(row, query)
  }

  /** The filter stage over a list of filters keeps the rows every filter keeps:
      filtering by `fs + gs` is filtering by `fs` and then by `gs`. */
  lemma FilterStageIntersects(data: seq<Row>, fs: seq<Filters.Filter>, gs: seq<Filters.Filter>)
    ensures Keep(data, Passes(fs + gs)) == Keep(Keep(data, Passes(fs)), Passes(gs))
  {
    forall x: Row ensures Passes(fs + gs)(x) == (Passes(fs)(x) && Passes(gs)(x)) {
      Filters.AdmitsConcat(fs, gs, x);
    }
    KeepKeep(data, Passes(fs), Passes(gs), Passes(fs + gs));
  }

  /** Filtering, searching and sorting: `TypeError` when the predicate throws. */
  function Process(data: seq<Row>, fs: seq<Filters.Filter>, query: string, le: (Row, Row) -> bool): (r: Result<seq<Row>>)
    ensures r.TypeError? <==> exists i :: 0 <= i < |data| && Filters.Admits(fs, data[i]).None?
    ensures r.Ok? ==> r.value == Sort(Keep(data, Visible(fs, query)), le)
  {
    match FilterRows(data, fs)
    case TypeError => TypeError
    case Ok(filtered) =>
      KeepKeep(data, Passes(fs), SearchHit(query), Visible(fs, query));
      Ok(Sort(SearchRows(filtered, query), le))
  }

  function InData(data: seq<Row>): Row -> bool {
    (row: Row) => ContainsRef(data, row)
  }

  /** Selection reconciliation, `selected.filter(s => data.includes(s))`: the
      previous selection, in order, restricted to the rows whose reference is
      still in `data`. */
  function Reconcile(selected: seq<Row>, data: seq<Row>): (r: seq<Row>)
    ensures IsSubsequence(r, selected)
    ensures forall i :: 0 <= i < |r| ==> r[i] in selected && ContainsRef(data, r[i])
    ensures forall i :: 0 <= i < |selected| && ContainsRef(data, selected[i]) ==> selected[i] in r
    ensures forall i :: 0 <= i < |selected| ==>
      multiset(r)[selected[i]] == if ContainsRef(data, selected[i]) then multiset(selected)[selected[i]] else 0
  {
    var r := Keep(selected, InData(data));
    assert forall i :: 0 <= i < |r| ==> InData(data)(r[i]);
    assert forall i :: 0 <= i < |selected| ==> InData(data)(selected[i]) == ContainsRef(data, selected[i]);
    r
  }

  /** Reconciling twice against the same data is reconciling once. */
  lemma ReconcileIdempotent(selected: seq<Row>, data: seq<Row>)
    ensures Reconcile(Reconcile(selected, data), data) == Reconcile(selected, data)
  {
    KeepIdempotent(selected, InData(data));
  }

  /** Identity is by reference: a selected row whose reference left the data is
      dropped even when a row with identical fields remains. */
  lemma ReconcileIgnoresEqualFields(selected: seq<Row>, data: seq<Row>, x: Row)
    requires x in selected
    requires forall i :: 0 <= i < |data| ==> data[i].ref != x.ref
    ensures x !in Reconcile(selected, data)
  {
  }

  /** The separate effect that reconciles the selection whenever the data changes. */
  function ReconcileSelection(s: ViewState, data: seq<Row>): (r: ViewState)
    ensures r.(selected := s.selected) == s
    ensures r.selected == Reconcile(s.selected, data)
    ensures forall i :: 0 <= i < |r.selected| ==> ContainsRef(data, r.selected[i])
    ensures IsSubsequence(r.selected, s.selected)
  {
    s.(selected := Reconcile(s.selected, data))
  }

  /** The pagination stage, `sorted.slice(start, start + size)` with
      `start = page * size`. */
  function PageOf(sorted: seq<Row>, page: nat, size: PageSize): (v: seq<Row>)
    ensures |v| <= size
    ensures |v| == if page * size >= |sorted| then 0 else Min(size, |sorted| - page * size)
    ensures forall k :: 0 <= k < |v| ==> v[k] == sorted[page * size + k]
    ensures forall k :: 0 <= k < |v| ==> v[k] in sorted
  {
    Window(sorted, page * size, size)
  }

  /** A page of ordered rows is ordered. */
  lemma PageOfSorted(sorted: seq<Row>, page: nat, size: PageSize, le: (Row, Row) -> bool)
    requires Sorted(sorted, le)
    ensures Sorted(PageOf(sorted, page, size), le)
  {
    var v := PageOf(sorted, page, size);
    var start := page * size;
    forall k | 0 <= k && k + 1 < |v| ensures le(v[k], v[k + 1]) {
      assert v[k] == sorted[start + k];
      assert v[k + 1] == sorted[start + k + 1];
    }
  }

  /** `Math.max(0, (1 + page) * size - n)`. */
  function EmptyRows(n: nat, page: nat, size: PageSize): (r: nat)
    ensures r == 0 <==> (1 + page) * size <= n
    ensures r > 0 ==> n + r == (1 + page) * size
  {
    var gap := (1 + page) * size - n;
    if gap > 0 then gap else 0
  }

  /** While the page starts within the `n` rows, shown rows and blank rows
      together fill exactly one page; past the end the page is empty and the
      blank rows exceed a page. */
  lemma PageFill(sorted: seq<Row>, page: nat, size: PageSize)
    ensures page * size <= |sorted| ==> |PageOf(sorted, page, size)| + EmptyRows(|sorted|, page, size) == size
    ensures page * size > |sorted| ==> |PageOf(sorted, page, size)| == 0 && EmptyRows(|sorted|, page, size) > size
  {
    assert (1 + page) * size == page * size + size;
  }

  /** The derivation effect: the page of filtered, searched and sorted data, the
      count of blank rows padding the page, and the reconciled selection; it
      throws when the filter predicate throws on some row. */
  function Derive(s: ViewState, data: seq<Row>, cmp: Comparator): (r: Result<ViewState>)
    ensures r.TypeError? <==> exists i :: 0 <= i < |data| && Filters.Admits(s.filters, data[i]).None?
    ensures r.Ok? ==> |r.value.visibleRows| <= s.rowsPerPage
    ensures r.Ok? ==> r.value.selected == Reconcile(s.selected, data)
    ensures r.Ok? ==> IsSubsequence(r.value.selected, s.selected)
    ensures r.Ok? ==> forall i :: 0 <= i < |r.value.selected| ==> ContainsRef(data, r.value.selected[i])
    ensures r.Ok? ==> r.value.(visibleRows := s.visibleRows, emptyRows := s.emptyRows, selected := s.selected) == s
  {
    match Process(data, s.filters, s.searchQuery, cmp(s.order, s.orderBy))
    case TypeError => TypeError
    case Ok(sorted) =>
      Ok(s.(visibleRows := PageOf(sorted, s.page, s.rowsPerPage),
            emptyRows := EmptyRows(|sorted|, s.page, s.rowsPerPage),
            selected := Reconcile(s.selected, data)))
  }

  /** The rows the pipeline processes: the data that passes the filters and
      the search, sorted. */
  function Matching(s: ViewState, data: seq<Row>, cmp: Comparator): seq<Row> {
    Sort(Keep(data, Visible(s.filters, s.searchQuery)), cmp(s.order, s.orderBy))
  }

  /** The state shows what the derivation computes for `data`: the page of the
      matching rows and the blank-row count for them. */
  predicate Shows(s: ViewState, data: seq<Row>, cmp: Comparator) {
    var m := Matching(s, data, cmp);
    s.visibleRows == PageOf(m, s.page, s.rowsPerPage) && s.emptyRows == EmptyRows(|m|, s.page, s.rowsPerPage)
  }

  /** A successful derivation shows its data. */
  lemma DeriveShows(s: ViewState, data: seq<Row>, cmp: Comparator)
    ensures Derive(s, data, cmp).Ok? ==> Shows(Derive(s, data, cmp).value, data, cmp)
  {
    if Derive(s, data, cmp).Ok? {
      var u := Derive(s, data, cmp).value;
      assert u.filters == s.filters && u.searchQuery == s.searchQuery;
      assert u.order == s.order && u.orderBy == s.orderBy && u.page == s.page && u.rowsPerPage == s.rowsPerPage;
      DeriveShowsWindow(s, data, cmp);
    }
  }

  /** What a state shows depends only on the page, the filters and the
      derivation's other inputs. */
  lemma ShowsKept(s: ViewState, t: ViewState, data: seq<Row>, cmp: Comparator)
    requires Shows(s, data, cmp)
    requires t.filters == s.filters && Dependencies(t) == Dependencies(s)
    requires t.visibleRows == s.visibleRows && t.emptyRows == s.emptyRows
    ensures Shows(t, data, cmp)
  {
    assert Matching(t, data, cmp) == Matching(s, data, cmp);
  }

  /** The page shown is the pagination window of the matching rows sorted,
      and the blank-row count is computed from the number of matching rows. */
  lemma DeriveShowsWindow(s: ViewState, data: seq<Row>, cmp: Comparator)
    ensures Derive(s, data, cmp).Ok? ==>
      Derive(s, data, cmp).value.visibleRows == PageOf(Matching(s, data, cmp), s.page, s.rowsPerPage)
    ensures Derive(s, data, cmp).Ok? ==>
      Derive(s, data, cmp).value.emptyRows == EmptyRows(|Matching(s, data, cmp)|, s.page, s.rowsPerPage)
  {
    var p := Process(data, s.filters, s.searchQuery, cmp(s.order, s.orderBy));
    if p.Ok? {
      assert p.value == Matching(s, data, cmp);
    }
  }

  /** Every row shown is a row of the data that passes every filter and matches
      the search query. */
  lemma DeriveShowsMatchingRows(s: ViewState, data: seq<Row>, cmp: Comparator)
    ensures Derive(s, data, cmp).Ok? ==>
      forall k :: 0 <= k < |Derive(s, data, cmp).value.visibleRows| ==>
        var x := Derive(s, data, cmp).value.visibleRows[k];
        x in data && Filters.Admits(s.filters, x) == Some(true) && MatchesSearch(x, s.searchQuery)
  {
    if Derive(s, data, cmp).TypeError? {
      return;
    }
    DeriveShowsWindow(s, data, cmp);
    var m := Matching(s, data, cmp);
    var kept := Keep(data, Visible(s.filters, s.searchQuery));
    var v := Derive(s, data, cmp).value.visibleRows;
    forall k | 0 <= k < |v|
      ensures v[k] in data && Visible(s.filters, s.searchQuery)(v[k])
    {
      assert v[k] in m;
      SortMembers(kept, cmp(s.order, s.orderBy), v[k]);
    }
  }

  /** While the page starts within the matching rows, shown rows and blank rows
      together fill exactly one page. */
  lemma DeriveFillsPage(s: ViewState, data: seq<Row>, cmp: Comparator)
    ensures Derive(s, data, cmp).Ok? && s.page * s.rowsPerPage <= |Keep(data, Visible(s.filters, s.searchQuery))| ==>
      |Derive(s, data, cmp).value.visibleRows| + Derive(s, data, cmp).value.emptyRows == s.rowsPerPage
  {
    DeriveShowsWindow(s, data, cmp);
    PageFill(Matching(s, data, cmp), s.page, s.rowsPerPage);
  }

  /** The rows shown are ordered by the comparator when it is total. */
  lemma DeriveShowsSortedPage(s: ViewState, data: seq<Row>, cmp: Comparator)
    requires Total(cmp(s.order, s.orderBy))
    ensures Derive(s, data, cmp).Ok? ==> Sorted(Derive(s, data, cmp).value.visibleRows, cmp(s.order, s.orderBy))
  {
    DeriveShowsWindow(s, data, cmp);
    PageOfSorted(Matching(s, data, cmp), s.page, s.rowsPerPage, cmp(s.order, s.orderBy));
  }

  // ----------------------------------------------------------------- handlers

  /** `handleSearch`: store the query lower-cased. */
  function HandleSearch(s: ViewState, query: string): (r: ViewState)
    ensures r.(searchQuery := s.searchQuery) == s
    ensures r.searchQuery == Lower(query)
    ensures Lower(r.searchQuery) == r.searchQuery
    ensures |r.searchQuery| == |query|
  {
    LowerIdempotent(query);
    s.(searchQuery := Lower(query))
  }

  /** The search is case-insensitive in the typed text: two queries that differ
      only in letter case select the same rows. */
  lemma SearchIgnoresQueryCase(rows: seq<Row>, s: ViewState, q1: string, q2: string)
    requires Lower(q1) == Lower(q2)
    ensures SearchRows(rows, HandleSearch(s, q1).searchQuery) == SearchRows(rows, HandleSearch(s, q2).searchQuery)
  {
  }

  /** Typing a query in upper case finds the rows its lower-case form finds. */
  lemma SearchIgnoresUpperCase(rows: seq<Row>, s: ViewState, q: string)
    ensures SearchRows(rows, HandleSearch(s, q).searchQuery) == SearchRows(rows, HandleSearch(s, Lower(q)).searchQuery)
  {
    LowerIdempotent(q);
  }

  /** `handleRequestSort`: the clicked column becomes the sort key; the order
      becomes descending exactly when that column was already sorted ascending. */
  function HandleRequestSort(s: ViewState, property: string): (r: ViewState)
    ensures r.orderBy == Some(property)
    ensures r.order == Desc <==> s.orderBy == Some(property) && s.order == Asc
    ensures r.(order := s.order, orderBy := s.orderBy) == s
  {
    var isAsc := s.orderBy == Some(property) && s.order == Asc;
    s.(order := if isAsc then Desc else Asc, orderBy := Some(property))
  }

  /** Clicking the active ascending column twice gives back the same state. */
  lemma RequestSortTwice(s: ViewState, property: string)
    requires s.orderBy == Some(property) && s.order == Asc
    ensures HandleRequestSort(HandleRequestSort(s, property), property) == s
  {
  }

  /** Clicking a column that is not active twice leaves it sorted descending. */
  lemma RequestSortOtherTwice(s: ViewState, property: string)
    requires s.orderBy != Some(property)
    ensures HandleRequestSort(s, property).order == Asc
    ensures HandleRequestSort(HandleRequestSort(s, property), property).order == Desc
  {
  }

  /** `handleSelectAllClick`: checked selects a copy of `currentData`, which is
      the data the component was first built with; unchecked selects nothing. */
  function HandleSelectAllClick(s: ViewState, checked: bool): (r: ViewState)
    ensures checked ==> r.selected == s.currentData
    ensures !checked ==> r.selected == []
    ensures r.(selected := s.selected) == s
  {
    s.(selected := if checked then s.currentData else [])
  }

  /** The selection after clicking `row`, with the branches of `handleClick`. */
  function ToggleSelected(selected: seq<Row>, row: Row): (r: seq<Row>)
    ensures !ContainsRef(selected, row) ==> r == selected + [row]
    ensures ContainsRef(selected, row) ==>
      exists i :: 0 <= i < |selected| && selected[i].ref == row.ref
        && (forall j :: 0 <= j < i ==> selected[j].ref != row.ref)
        && r == selected[..i] + selected[i + 1..]
  {
    match IndexOf(selected, SameRefAs(row))
    case None =>
      assert forall j :: 0 <= j < |selected| ==> !SameRefAs(row)(selected[j]);
      selected + [row]
    case Some(i) =>
      assert forall j :: 0 <= j < i ==> !SameRefAs(row)(selected[j]);
      if i == 0 then
        assert selected[1..] == selected[..0] + selected[1..];
        selected[1..]
      else if i == |selected| - 1 then
        assert selected[..i] == selected[..i] + selected[i + 1..];
        selected[..|selected| - 1]
      else
        selected[..i] + selected[i + 1..]
  }

  /** `handleClick`. */
  function HandleClick(s: ViewState, row: Row): (r: ViewState)
    ensures r.(selected := s.selected) == s
    ensures !ContainsRef(s.selected, row) ==> r.selected == s.selected + [row]
    ensures r.selected == ToggleSelected(s.selected, row)
    ensures ContainsRef(s.selected, row) ==>
      |r.selected| == |s.selected| - 1 && IsSubsequence(r.selected, s.selected)
  {
    if ContainsRef(s.selected, row) then
      TogglePresentRemovesOne(s.selected, row);
      s.(selected := ToggleSelected(s.selected, row))
    else
      s.(selected := ToggleSelected(s.selected, row))
  }

  /** Clicking an unselected row twice restores the selection. */
  lemma ToggleAbsentTwice(selected: seq<Row>, row: Row)
    requires !ContainsRef(selected, row)
    ensures ToggleSelected(ToggleSelected(selected, row), row) == selected
  {
    var once := selected + [row];
    assert once[|selected|].ref == row.ref;
    assert forall j :: 0 <= j < |selected| ==> once[j].ref != row.ref;
    assert ContainsRef(once, row);
    var i :| 0 <= i < |once| && once[i].ref == row.ref
        && (forall j :: 0 <= j < i ==> once[j].ref != row.ref)
        && ToggleSelected(once, row) == once[..i] + once[i + 1..];
    assert once[..|selected|] == selected;
  }

  /** Clicking a selected row removes one occurrence and keeps the others in order. */
  lemma TogglePresentRemovesOne(selected: seq<Row>, row: Row)
    requires ContainsRef(selected, row)
    ensures |ToggleSelected(selected, row)| == |selected| - 1
    ensures IsSubsequence(ToggleSelected(selected, row), selected)
  {
    var k :| 0 <= k < |selected| && selected[k].ref == row.ref;
    assert SameRefAs(row)(selected[k]);
    var i := IndexOf(selected, SameRefAs(row)).value;
    assert ToggleSelected(selected, row) == selected[..i] + selected[i + 1..];
    DropIsSubsequence(selected, i);
  }

  lemma {:induction false} DropIsSubsequence<T>(s: seq<T>, i: nat)
    requires i < |s|
    ensures IsSubsequence(s[..i] + s[i + 1..], s)
    decreases i
  {
    var d := s[..i] + s[i + 1..];
    if i == 0 {
      assert d == s[1..];
      SelfSubsequence(s[1..]);
    } else {
      DropIsSubsequence(s[1..], i - 1);
      assert d[0] == s[0];
      assert d[1..] == s[1..][..i - 1] + s[1..][i..];
    }
  }

  lemma {:induction false} SelfSubsequence<T>(s: seq<T>)
    ensures IsSubsequence(s, s)
    decreases |s|
  {
    if |s| > 0 {
      SelfSubsequence(s[1..]);
    }
  }

  /** `handleChangePage`. */
  function HandleChangePage(s: ViewState, newPage: nat): (r: ViewState)
    ensures r.page == newPage
    ensures r.(page := s.page) == s
  {
    s.(page := newPage)
  }

  /** `handleChangeRowsPerPage`: a new page size goes back to the first page. */
  function HandleChangeRowsPerPage(s: ViewState, size: PageSize): (r: ViewState)
    ensures r.rowsPerPage == size && r.page == 0
    ensures r.(rowsPerPage := s.rowsPerPage, page := s.page) == s
  {
    s.(rowsPerPage := size, page := 0)
  }

  /** `handleFilterChange`: install the toolbar's composed predicate. */
  function HandleFilterChange(s: ViewState, fs: seq<Filters.Filter>): (r: ViewState)
    ensures forall row :: Filters.Admits(r.filters, row) == Filters.Admits(fs, row)
    ensures r.(filters := s.filters) == s
  {
    s.(filters := fs)
  }

  /** The effect that re-resolves the sort key whenever the data changes. */
  function SyncOrderBy(s: ViewState, data: seq<Row>, defaultOrderBy: Option<string>): (r: ViewState)
    ensures r.orderBy == DefaultOrderByKey(data, defaultOrderBy)
    ensures |data| > 0 && |data[0].cells| > 0 ==> r.orderBy.Some? && r.orderBy.value in Keys(data[0])
    ensures r.(orderBy := s.orderBy) == s
  {
    s.(orderBy := DefaultOrderByKey(data, defaultOrderBy))
  }

  // ------------------------------------------------------------ event traces

  /** What can happen to the component: user events, a new filter predicate from
      the toolbar, and a data change (which re-resolves the sort key, reconciles
      the selection and re-derives the page). */
  datatype Event =
    | SearchTyped(query: string)
    | SortClicked(property: string)
    | SelectAllToggled(checked: bool)
    | RowClicked(row: Row)
    | PageChanged(page: nat)
    | PageSizeChanged(size: PageSize)
    | FiltersChanged(filters: seq<Filters.Filter>)
    | DataChanged(data: seq<Row>, defaultOrderBy: Option<string>)

  /** Every selected row is present, by reference, in `data`. */
  predicate SelectionIn(selected: seq<Row>, data: seq<Row>) {
    forall i :: 0 <= i < |selected| ==> ContainsRef(data, selected[i])
  }

  /** The data in effect after an event. */
  function DataAfter(data: seq<Row>, e: Event): seq<Row> {
    if e.DataChanged? then e.data else data
  }

  /** The state fields the derivation effect lists as dependencies, besides the
      data and the predicate. `selected` is not among them. */
  function Dependencies(s: ViewState): (Order, Option<string>, nat, PageSize, string) {
    (s.order, s.orderBy, s.page, s.rowsPerPage, s.searchQuery)
  }

  /** The handler (or, for a data change, the key and selection effects) that an
      event triggers, before any derivation. */
  function Apply(s: ViewState, data: seq<Row>, e: Event): (r: (ViewState, seq<Row>))
    ensures r.1 == DataAfter(data, e)
    ensures r.0.currentData == s.currentData && r.0.visibleRows == s.visibleRows && r.0.emptyRows == s.emptyRows
    ensures !e.FiltersChanged? ==> r.0.filters == s.filters
    ensures e.DataChanged? ==> SelectionIn(r.0.selected, r.1)
    ensures !e.SelectAllToggled? && !e.RowClicked? && !e.DataChanged? ==> r.0.selected == s.selected
    ensures e.SelectAllToggled? || e.RowClicked? ==> Dependencies(r.0) == Dependencies(s)
  {
    match e
    case SearchTyped(q) => (HandleSearch(s, q), data)
    case SortClicked(p) => (HandleRequestSort(s, p), data)
    case SelectAllToggled(c) => (HandleSelectAllClick(s, c), data)
    case RowClicked(row) => (HandleClick(s, row), data)
    case PageChanged(p) => (HandleChangePage(s, p), data)
    case PageSizeChanged(n) => (HandleChangeRowsPerPage(s, n), data)
    case FiltersChanged(fs) => (HandleFilterChange(s, fs), data)
    case DataChanged(d, k) => (ReconcileSelection(SyncOrderBy(s, d, k), d), d)
  }

  /** The derivation effect runs again when the data changes, when the toolbar
      installs a predicate (always a fresh closure), or when one of the other
      listed dependencies changes value. */
  predicate Rederives(s: ViewState, t: ViewState, e: Event) {
    e.DataChanged? || e.FiltersChanged? || Dependencies(t) != Dependencies(s)
  }

  /** One event, followed by the derivation when one of its dependencies changed.
      Select-all and row clicks change only `selected`, which the derivation does
      not depend on, so after them nothing reconciles the selection. */
  function Step(s: ViewState, data: seq<Row>, e: Event, cmp: Comparator): (r: Result<(ViewState, seq<Row>)>)
    ensures r.Ok? ==> r.value.0.currentData == s.currentData
    ensures r.Ok? ==> r.value.1 == DataAfter(data, e)
    ensures e.SelectAllToggled? || e.RowClicked? ==>
      r.Ok? && r.value.0 == Apply(s, data, e).0 && r.value.0.visibleRows == s.visibleRows
    ensures e.DataChanged? ==>
      (r.TypeError? <==> exists i :: 0 <= i < |e.data| && Filters.Admits(s.filters, e.data[i]).None?)
    ensures e.DataChanged? && r.Ok? ==> SelectionIn(r.value.0.selected, r.value.1)
    ensures SelectionIn(s.selected, data) && !e.SelectAllToggled? && !e.RowClicked? && r.Ok? ==>
      SelectionIn(r.value.0.selected, r.value.1)
    ensures !Rederives(s, Apply(s, data, e).0, e) ==> r == Ok(Apply(s, data, e))
  {
    var a := Apply(s, data, e);
    if !Rederives(s, a.0, e) then
      assert !e.DataChanged?;
      Ok(a)
    else
      assert !e.SelectAllToggled? && !e.RowClicked?;
      match Derive(a.0, a.1, cmp)
      case TypeError => TypeError
      case Ok(u) =>
        assert SelectionIn(u.selected, a.1);
        Ok((u, a.1))
  }

  /** After a successful step the state shows the data in effect: always when
      the step re-derives, and otherwise when the state showed its data before,
      since then no input of the derivation changed. */
  lemma StepShows(s: ViewState, data: seq<Row>, e: Event, cmp: Comparator)
    ensures var r := Step(s, data, e, cmp);
      Rederives(s, Apply(s, data, e).0, e) && r.Ok? ==> Shows(r.value.0, r.value.1, cmp)
    ensures var r := Step(s, data, e, cmp);
      Shows(s, data, cmp) && r.Ok? ==> Shows(r.value.0, r.value.1, cmp)
  {
    var a := Apply(s, data, e);
    if !Rederives(s, a.0, e) {
      if Shows(s, data, cmp) {
        assert a.1 == data;
        ShowsKept(s, a.0, data, cmp);
      }
    } else {
      DeriveShows(a.0, a.1, cmp);
    }
  }

  /** The data in effect after a sequence of events, read from its end: the data
      of the last data change, or the initial data when there is none. */
  function LastData(data: seq<Row>, events: seq<Event>): seq<Row>
    decreases |events|
  {
    if |events| == 0 then data
    else DataAfter(LastData(data, events[..|events| - 1]), events[|events| - 1])
  }

  lemma {:induction false} LastDataCons(data: seq<Row>, events: seq<Event>)
    requires |events| > 0
    ensures LastData(data, events) == LastData(DataAfter(data, events[0]), events[1..])
    decreases |events|
  {
    var n := |events|;
    if n == 1 {
      assert events[..0] == [];
      assert events[1..] == [];
    } else {
      LastDataCons(data, events[..n - 1]);
      assert events[..n - 1][0] == events[0];
      assert events[..n - 1][1..] == events[1..][..n - 2];
      assert events[1..][n - 2] == events[n - 1];
    }
  }

  /** A sequence of events from a state and data; stops at the first throw. */
  function Run(s: ViewState, data: seq<Row>, events: seq<Event>, cmp: Comparator): (r: Result<(ViewState, seq<Row>)>)
    ensures r.Ok? ==> r.value.1 == LastData(data, events)
    ensures r.Ok? ==> r.value.0.currentData == s.currentData
    decreases |events|
  {
    if |events| == 0 then Ok((s, data))
    else match Step(s, data, events[0], cmp)
      case TypeError => TypeError
      case Ok((t, d)) =>
        LastDataCons(data, events);
        Run(t, d, events[1..], cmp)
  }

  /** Mounting: the initial state, then the first run of the effects. The
      sort-key effect re-resolves the key the initial state already holds, and
      the derivation runs over the initial data; with no filter installed it
      cannot throw. Reconciling the empty selection leaves it empty. */
  function Mount(data0: seq<Row>, defaultOrderBy: Option<string>, defaultOrder: Option<Order>, cmp: Comparator): (s: ViewState)
    ensures Shows(s, data0, cmp)
    ensures s.currentData == data0 && s.selected == []
    ensures s.order == defaultOrder.GetOr(Asc) && s.orderBy == DefaultOrderByKey(data0, defaultOrderBy)
    ensures s.page == 0 && s.rowsPerPage == 5 && s.searchQuery == ""
    ensures forall row :: Filters.Admits(s.filters, row) == Some(true)
  {
    var s0 := SyncOrderBy(Init(data0, defaultOrderBy, defaultOrder), data0, defaultOrderBy);
    assert forall i :: 0 <= i < |data0| ==> Filters.Admits(s0.filters, data0[i]) == Some(true);
    DeriveShows(s0, data0, cmp);
    Derive(s0, data0, cmp).value
  }

  /** Once a state shows its data, it shows the data in effect after every
      successful run of events: each event either leaves every input of the
      derivation as it was or triggers the derivation. */
  lemma {:induction false} RunShows(s: ViewState, data: seq<Row>, events: seq<Event>, cmp: Comparator)
    requires Shows(s, data, cmp)
    ensures Run(s, data, events, cmp).Ok? ==>
      Shows(Run(s, data, events, cmp).value.0, Run(s, data, events, cmp).value.1, cmp)
    decreases |events|
  {
    if |events| > 0 && Step(s, data, events[0], cmp).Ok? {
      var m := Step(s, data, events[0], cmp).value;
      StepShows(s, data, events[0], cmp);
      RunShows(m.0, m.1, events[1..], cmp);
    }
  }

  /** `currentData` never changes after construction, so select-all selects the
      data the component was built with, whatever data it now shows. */
  lemma SelectAllUsesInitialData(
    data0: seq<Row>, defaultOrderBy: Option<string>, defaultOrder: Option<Order>,
    events: seq<Event>, cmp: Comparator)
    ensures var s := Mount(data0, defaultOrderBy, defaultOrder, cmp);
      Run(s, data0, events, cmp).Ok? ==> HandleSelectAllClick(Run(s, data0, events, cmp).value.0, true).selected == data0
  {
  }

  /** As written, select-all after a data change selects rows that are no longer
      in the data, and no effect removes them: mount with `data0`, receive data
      `d` lacking `data0[0]`, tick select-all. */
  lemma StaleSelectionAfterDataChange(
    data0: seq<Row>, d: seq<Row>, k: Option<string>, k2: Option<string>, o: Option<Order>, cmp: Comparator)
    requires |data0| > 0 && !ContainsRef(d, data0[0])
    ensures var r := Run(Mount(data0, k, o, cmp), data0, [DataChanged(d, k2), SelectAllToggled(true)], cmp);
      r.Ok? && r.value.1 == d && r.value.0.selected == data0 && !SelectionIn(r.value.0.selected, r.value.1)
  {
    StaleSelectionFrom(Mount(data0, k, o, cmp), data0, d, k2, cmp);
  }

  /** The same run from any state whose predicate admits every row. */
  lemma StaleSelectionFrom(s0: ViewState, data0: seq<Row>, d: seq<Row>, k2: Option<string>, cmp: Comparator)
    requires forall row :: Filters.Admits(s0.filters, row) == Some(true)
    requires |s0.currentData| > 0 && !ContainsRef(d, s0.currentData[0])
    ensures var r := Run(s0, data0, [DataChanged(d, k2), SelectAllToggled(true)], cmp);
      r.Ok? && r.value.1 == d && r.value.0.selected == s0.currentData && !SelectionIn(r.value.0.selected, r.value.1)
  {
    DataChangeUnfiltered(s0, data0, d, k2, cmp);
    var m := Step(s0, data0, DataChanged(d, k2), cmp).value;
    RunTwo(s0, data0, DataChanged(d, k2), SelectAllToggled(true), cmp);
    SelectAllStep(m.0, d, cmp);
  }

  /** Ticking select-all selects `currentData` and changes nothing else. */
  lemma SelectAllStep(s: ViewState, data: seq<Row>, cmp: Comparator)
    ensures Step(s, data, SelectAllToggled(true), cmp) == Ok((s.(selected := s.currentData), data))
  {
  }

  /** With a predicate that admits every row, a data change never throws. */
  lemma DataChangeUnfiltered(s: ViewState, data: seq<Row>, d: seq<Row>, k: Option<string>, cmp: Comparator)
    requires forall row :: Filters.Admits(s.filters, row) == Some(true)
    ensures var r := Step(s, data, DataChanged(d, k), cmp);
      r.Ok? && r.value.1 == d && r.value.0.currentData == s.currentData
  {
    assert forall i :: 0 <= i < |d| ==> Filters.Admits(s.filters, d[i]) == Some(true);
  }

  /** Two events run one after the other. */
  lemma RunTwo(s: ViewState, data: seq<Row>, e1: Event, e2: Event, cmp: Comparator)
    requires Step(s, data, e1, cmp).Ok?
    ensures var m := Step(s, data, e1, cmp).value;
      Run(s, data, [e1, e2], cmp) == Step(m.0, m.1, e2, cmp)
  {
    var m := Step(s, data, e1, cmp).value;
    var events := [e1, e2];
    assert events[1..] == [e2];
    assert Run(s, data, events, cmp) == Run(m.0, m.1, [e2], cmp);
    RunOne(m.0, m.1, e2, cmp);
  }

  /** A single event runs as one step. */
  lemma RunOne(s: ViewState, data: seq<Row>, e: Event, cmp: Comparator)
    ensures Run(s, data, [e], cmp) == Step(s, data, e, cmp)
  {
    assert [e][1..] == [];
  }

  /** Select-all as the reconciliation comment intends it: select the rows of
      the data in effect instead of the data the component was built with. With
      it, no event takes the selection outside the data, provided a click is on
      a row of that data. */
  function StepCorrected(s: ViewState, data: seq<Row>, e: Event, cmp: Comparator): (r: Result<(ViewState, seq<Row>)>)
    ensures r.Ok? ==> r.value.0.currentData == s.currentData && r.value.1 == DataAfter(data, e)
    ensures e.SelectAllToggled? && e.checked ==>
      r.Ok? && forall i :: 0 <= i < |data| ==> ContainsRef(r.value.0.selected, data[i])
    ensures SelectionIn(s.selected, data) && (e.RowClicked? ==> ContainsRef(data, e.row)) && r.Ok? ==>
      SelectionIn(r.value.0.selected, r.value.1)
  {
    if e.SelectAllToggled? then
      SelectsAll(data);
      Ok((s.(selected := if e.checked then data else []), data))
    else if e.RowClicked? && SelectionIn(s.selected, data) && ContainsRef(data, e.row) then
      ToggleStaysInData(s.selected, data, e.row);
      assert Step(s, data, e, cmp).value.0.selected == ToggleSelected(s.selected, e.row);
      Step(s, data, e, cmp)
    else
      Step(s, data, e, cmp)
  }

  /** Every row of `data` is in `data`. */
  lemma SelectsAll(data: seq<Row>)
    ensures SelectionIn(data, data)
  {
    forall i | 0 <= i < |data| ensures ContainsRef(data, data[i]) {
      assert data[i].ref == data[i].ref;
    }
  }

  /** A click on a row of the data keeps the selection inside the data. */
  lemma ToggleStaysInData(selected: seq<Row>, data: seq<Row>, row: Row)
    requires SelectionIn(selected, data) && ContainsRef(data, row)
    ensures SelectionIn(ToggleSelected(selected, row), data)
  {
    var sel := ToggleSelected(selected, row);
    if ContainsRef(selected, row) {
      var i :| 0 <= i < |selected| && selected[i].ref == row.ref
        && (forall j :: 0 <= j < i ==> selected[j].ref != row.ref)
        && sel == selected[..i] + selected[i + 1..];
      forall j | 0 <= j < |sel| ensures ContainsRef(data, sel[j]) {
        if j < i {
          assert sel[j] == selected[j];
        } else {
          assert sel[j] == selected[j + 1];
        }
      }
    } else {
      forall j | 0 <= j < |sel| ensures ContainsRef(data, sel[j]) {
        if j < |selected| {
          assert sel[j] == selected[j];
        }
      }
    }
  }
}

=== FILE: text.dfy ===
/** ASCII stand-ins for the JavaScript string operations the component relies on:
    `toLowerCase`/`toUpperCase`, `includes`, `Number.prototype.toString` and the
    string case of `JSON.stringify`. */
module Text {
  import opened Wrappers

  function LowerChar(c: char): char {
    if 'A' <= c <= 'Z' then (c as int + 32) as char else c
  }

  function UpperChar(c: char): char {
    if 'a' <= c <= 'z' then (c as int - 32) as char else c
  }

  /** `toLowerCase`, restricted to ASCII letters. */
  function Lower(s: string): (r: string)
    ensures |r| == |s|
    ensures forall i :: 0 <= i < |s| ==> r[i] == LowerChar(s[i])
  {
    seq(|s|, i requires 0 <= i < |s| => LowerChar(s[i]))
  }

  /** Lower-casing an already lower-cased string changes nothing. */
  lemma LowerIdempotent(s: string)
    ensures Lower(Lower(s)) == Lower(s)
  {
  }

  /** `key.charAt(0).toUpperCase() + key.slice(1)`; the empty key stays empty. */
  function Capitalize(key: string): (r: string)
    ensures |r| == |key|
    ensures |key| > 0 ==> r[0] == UpperChar(key[0]) && r[1..] == key[1..]
  {
    if |key| == 0 then "" else [UpperChar(key[0])] + key[1..]
  }

  /** Capitalizing only changes the case of the first letter. */
  lemma CapitalizeKeepsLetters(key: string)
    ensures Lower(Capitalize(key)) == Lower(key)
  {
    if |key| > 0 {
      var c := Capitalize(key);
      assert LowerChar(UpperChar(key[0])) == LowerChar(key[0]);
      assert forall i :: 1 <= i < |key| ==> c[i] == key[i];
    }
  }

  /** `hay.includes(needle)`. */
  function Contains(hay: string, needle: string): (r: bool)
    ensures r ==> |needle| <= |hay|
    ensures |needle| == 0 ==> r
    decreases |hay|
  {
    needle <= hay || (|hay| > 0 && Contains(hay[1..], needle))
  }

  /** Lower-cased text contains only lower-case needles: a needle with an
      upper-case letter is never found in it. */
  lemma {:induction false} ContainedInLowerIsLower(hay: string, needle: string)
    requires Contains(Lower(hay), needle)
    ensures Lower(needle) == needle
    decreases |hay|
  {
    var l := Lower(hay);
    if needle <= l {
      forall k | 0 <= k < |needle|
        ensures Lower(needle)[k] == needle[k]
      {
        assert needle[k] == l[k] == LowerChar(hay[k]);
      }
    } else {
      assert l[1..] == Lower(hay[1..]);
      ContainedInLowerIsLower(hay[1..], needle);
    }
  }

  /** `needle` occurs in `hay` starting at position `i`. */
  predicate OccursAt(hay: string, needle: string, i: int) {
    0 <= i && i + |needle| <= |hay| && hay[i..i + |needle|] == needle
  }

  /** `includes` finds `needle` exactly when it occurs at some position of `hay`. */
  lemma ContainsIffOccurs(hay: string, needle: string)
    ensures Contains(hay, needle) <==> exists i :: OccursAt(hay, needle, i)
  {
    if Contains(hay, needle) {
      ContainsOccurs(hay, needle);
    }
    if exists i :: OccursAt(hay, needle, i) {
      var i :| OccursAt(hay, needle, i);
      OccursContains(hay, needle, i);
    }
  }

  lemma {:induction false} ContainsOccurs(hay: string, needle: string)
    requires Contains(hay, needle)
    ensures exists i :: OccursAt(hay, needle, i)
    decreases |hay|
  {
    if needle <= hay {
      assert OccursAt(hay, needle, 0);
    } else {
      ContainsOccurs(hay[1..], needle);
      var j :| OccursAt(hay[1..], needle, j);
      assert hay[1..][j..j + |needle|] == hay[j + 1..j + 1 + |needle|];
      assert OccursAt(hay, needle, j + 1);
    }
  }

  lemma {:induction false} OccursContains(hay: string, needle: string, i: int)
    requires OccursAt(hay, needle, i)
    ensures Contains(hay, needle)
    decreases |hay|
  {
    if i == 0 {
      assert needle <= hay;
    } else {
      assert hay[1..][i - 1..i - 1 + |needle|] == hay[i..i + |needle|];
      OccursContains(hay[1..], needle, i - 1);
    }
  }

  function DigitChar(d: nat): char
    requires d < 10
  {
    ('0' as int + d) as char
  }

  predicate IsDigit(c: char) { '0' <= c <= '9' }

  function DigitValue(c: char): nat
    requires IsDigit(c)
  {
    c as int - '0' as int
  }

  predicate AllDigits(s: string) { forall i :: 0 <= i < |s| ==> IsDigit(s[i]) }

  /** Decimal digits of a natural number, as `toString()`/`JSON.stringify` print it. */
  function NatToString(n: nat): (r: string)
    ensures |r| > 0 && AllDigits(r)
    ensures n == 0 <==> r == "0"
    ensures n > 0 ==> r[0] != '0'
    decreases n
  {
    if n < 10 then [DigitChar(n)] else NatToString(n / 10) + [DigitChar(n % 10)]
  }

  /** The form `toString()` gives an integer: no leading zero, and no minus
      sign before a zero. */
  predicate CanonicalInt(t: string) {
    t == "0" || (|t| > 0 && t[0] != '0' && (t[0] == '-' ==> |t| > 1 && t[1] != '0'))
  }

  /** An integer in JavaScript's decimal form: a minus sign for negatives. */
  function IntToString(n: int): (r: string)
    ensures |r| > 0 && (r[0] == '-' || IsDigit(r[0]))
    ensures forall i :: 0 <= i < |r| ==> r[i] == '-' || IsDigit(r[i])
    ensures CanonicalInt(r)
  {
    if n < 0 then "-" + NatToString(-n) else NatToString(n)
  }

  /** The value of a string of decimal digits. */
  function ParseDigits(s: string): nat
    requires AllDigits(s)
    decreases |s|
  {
    if |s| == 0 then 0 else ParseDigits(s[..|s| - 1]) * 10 + DigitValue(s[|s| - 1])
  }

  /** The integer a decimal string denotes, if it is one. */
  function ParseInt(s: string): Option<int> {
    if |s| > 1 && s[0] == '-' && AllDigits(s[1..]) then Some(0 - ParseDigits(s[1..]) as int)
    else if |s| > 0 && AllDigits(s) then Some(ParseDigits(s))
    else None
  }

  lemma {:induction false} ParseNatToString(n: nat)
    ensures ParseDigits(NatToString(n)) == n
    decreases n
  {
    if n >= 10 {
      ParseNatToString(n / 10);
      var s := NatToString(n / 10) + [DigitChar(n % 10)];
      assert s[..|s| - 1] == NatToString(n / 10);
    }
  }

  /** Printing an integer and reading it back gives the integer. */
  lemma ParseIntToString(n: int)
    ensures ParseInt(IntToString(n)) == Some(n)
  {
    if n < 0 {
      ParseNatToString(-n);
      assert IntToString(n)[1..] == NatToString(-n);
    } else {
      ParseNatToString(n);
    }
  }

  /** The escape sequence `JSON.stringify` writes for one character of a string
      (the named escapes; other control characters are written as they are). */
  function EscapeChar(c: char): string {
    if c == '"' then "\\\""
    else if c == '\\' then "\\\\"
    else if c == '\n' then "\\n"
    else if c == '\r' then "\\r"
    else if c == '\t' then "\\t"
    else [c]
  }

  function Escape(s: string): (r: string)
    ensures '\n' !in r
    decreases |s|
  {
    if |s| == 0 then "" else EscapeChar(s[0]) + Escape(s[1..])
  }

  /** Reads back what `Escape` writes; `None` for text `Escape` never produces. */
  function Unescape(t: string): Option<string>
    decreases |t|
  {
    if |t| == 0 then Some("")
    else if t[0] == '"' then None
    else if t[0] == '\\' then
      if |t| < 2 then None
      else
        var c :=
          if t[1] == 'n' then Some('\n')
          else if t[1] == 'r' then Some('\r')
          else if t[1] == 't' then Some('\t')
          else if t[1] == '"' || t[1] == '\\' then Some(t[1])
          else None;
        match (c, Unescape(t[2..]))
        case (Some(ch), Some(u)) => Some([ch] + u)
        case _ => None
    else
      match Unescape(t[1..])
      case Some(u) => Some([t[0]] + u)
      case None => None
  }

  /** Reading back one escaped character in front of readable text. */
  lemma UnescapeStep(c: char, rest: string)
    requires Unescape(rest).Some?
    ensures Unescape(EscapeChar(c) + rest) == Some([c] + Unescape(rest).value)
  {
    var e := EscapeChar(c);
    var t := e + rest;
    if |e| == 2 {
      assert t[0] == '\\' && t[2..] == rest;
    } else {
      assert e == [c] && t[0] == c && t[1..] == rest;
    }
  }

  lemma {:induction false} UnescapeEscape(s: string)
    ensures Unescape(Escape(s)) == Some(s)
    decreases |s|
  {
    if |s| > 0 {
      UnescapeEscape(s[1..]);
      UnescapeStep(s[0], Escape(s[1..]));
      assert [s[0]] + s[1..] == s;
    }
  }

  /** `JSON.stringify` of a string: the escaped text between double quotes. */
  function Quote(s: string): (r: string)
    ensures |r| >= 2 && r[0] == '"' && r[|r| - 1] == '"'
    ensures '\n' !in r
  {
    "\"" + Escape(s) + "\""
  }

  function Unquote(t: string): Option<string> {
    if |t| >= 2 && t[0] == '"' && t[|t| - 1] == '"' then Unescape(t[1..|t| - 1]) else None
  }

  /** Quoting is undone by unquoting. */
  lemma QuoteRoundTrip(s: string)
    ensures Unquote(Quote(s)) == Some(s)
  {
    var q := Quote(s);
    assert q[1..|q| - 1] == Escape(s);
    UnescapeEscape(s);
  }

  /** Only a string of zeros has the value zero. */
  lemma {:induction false} ZeroDigits(u: string)
    requires AllDigits(u)
    ensures ParseDigits(u) == 0 ==> forall i :: 0 <= i < |u| ==> u[i] == '0'
    decreases |u|
  {
    if |u| > 0 {
      var w := u[..|u| - 1];
      ZeroDigits(w);
      forall i | 0 <= i < |u| && ParseDigits(u) == 0 ensures u[i] == '0' {
        if i < |u| - 1 {
          assert u[i] == w[i];
        }
      }
    }
  }

  /** A digit string without a leading zero is the text of its own value. */
  lemma {:induction false} NatToStringOfDigits(t: string)
    requires |t| > 0 && AllDigits(t) && (t == "0" || t[0] != '0')
    ensures NatToString(ParseDigits(t)) == t
    decreases |t|
  {
    var u := t[..|t| - 1];
    var d := DigitValue(t[|t| - 1]);
    assert DigitChar(d) == t[|t| - 1];
    if |t| == 1 {
      assert u == [];
    } else {
      assert u[0] == t[0];
      ZeroDigits(u);
      NatToStringOfDigits(u);
      var n := ParseDigits(t);
      assert n / 10 == ParseDigits(u) && n % 10 == d;
      assert t == u + [t[|t| - 1]];
    }
  }

  /** The canonical text of an integer is unique: a canonical decimal string is
      the one `toString()` gives its value. */
  lemma CanonicalIntUnique(t: string, n: int)
    requires CanonicalInt(t) && ParseInt(t) == Some(n)
    ensures t == IntToString(n)
  {
    if |t| > 1 && t[0] == '-' && AllDigits(t[1..]) {
      var w := t[1..];
      assert w[0] == t[1];
      ZeroDigits(w);
      NatToStringOfDigits(w);
      assert t == "-" + w;
    } else {
      NatToStringOfDigits(t);
    }
  }
}

=== FILE: wrappers.dfy ===
/** Failure-compatible wrappers shared by the table model. */
module Wrappers {

  /** An optional value; `None` stands for JavaScript's `undefined`. */
  datatype Option<+T> = None | Some(value: T) {

    /** The wrapped value, or `default` for `None` (the `??`/`||` fallback). */
    function GetOr(default: T): T {
      match this
      case Some(v) => v
      case None => default
    }
  }

  /** The outcome of evaluating JavaScript that may throw: a value, or the
      `TypeError` raised by calling a method on `null`/`undefined` or on a value
      of the wrong type. */
  datatype Result<+T> = Ok(value: T) | TypeError
}
